=== FILE: README.md ===
# pstree core, modelled in Dafny

This project models the core of `pstree`, a Go program that prints the running processes
as a tree. The model covers three parts of the program.

- **Process records** (`records.dfy`, module `Records`). One `Process` record is built per
  process. Queries that fail get per-attribute sentinels, and attributes that were not
  requested keep Go's zero values. The records are ordered by PID. They can also be
  re-sorted by age, CPU, memory, PID, thread count or user, and looked up by PID.
- **Compact mode** (`compact.dfy`, module `Compact`). Processes are grouped by parent PID,
  signature and owner. Every member after the first of a group is marked to be skipped.
  Each group's report gives its count, member PIDs, oldest age and summed CPU, memory and
  threads. A group is printed as `N*[name] (pid,pid,…)`.
- **The command** (`command.dfy`, module `Command`):
  - the eight flag-conflict rules, checked in order;
  - `--show-all`;
  - the `--order-by` whitelist and the reordering that keeps PID 1 first;
  - the display options derived from the flags.

Supporting modules:
- `wrappers.dfy`: `Option`, `Result`, `Outcome`.
- `seqs.dfy`: mapping, filtering, sums and maxima, with their order-independence facts.
- `text.dfy`: decimal rendering and parsing (`%d`), `strings.Join`, `strings.Split`, and
  `filepath.Base` with `/` as separator.
- `ordering.dfy`: Go's string order, and sorting on a key. Any outcome of Go's unstable
  `sort.Slice` is described by `IsSortOf`: a permutation that is non-decreasing in the key.
  An insertion sort witnesses it.

Representation choices:
- The operating system's answers are a value, `Collected`. Each attribute is either
  `Fetched(v)` or `FetchFailed`.
- The clock is read once per record, as `util.GetUnixTimestamp()` is called inside `GenerateProcess` (pkg/pstree/pstree.go:492) for each process of the loop at 553-555. Each `Collected` value therefore carries its own reading `now`, and two records may see different times.
- The project helper `util.StoI` is a parameter `stoi`.
- CPU percentages are integers in hundredths of a percent, because the source rounds them
  to two decimals. The failure sentinel -1 becomes -100.
- The global skip map of the source is an explicit field of the `Compaction` value that
  `InitCompactMode` returns.

Where the code differs from what its comments and documentation describe, the model follows the code:
- Rule 7 accepts five colour schemes, including `powershell`. The comment above the rules
  (cmd/root.go:149) lists four.
- Compact grouping is keyed by parent PID over the whole node table, not per list of
  siblings.
- The comment on `GetProcessCount` (pkg/pstree/compact.go:153) lists an `isThread` result.
  The code returns the member PIDs in that position, and so does the model.
- The comment on `FormatCompactOutput` (pkg/pstree/compact.go:195 and 202) promises an
  `N*[{command}]` form for threads and an empty string for hidden threads. The code
  produces neither, and `FormatCompactOutput` in the model produces neither.

## Model

| member | source | states |
|---|---|---|
| Records.NormaliseArgs | pkg/pstree/pstree.go:481-489 | The first argument is dropped exactly when it equals the command name. Otherwise nothing is dropped, and the original list is that first argument followed by the result. |
| Records.GenerateProcess | pkg/pstree/pstree.go:137-528 | The PID is kept. The record is unlinked: parent, child and sister are -1. A failed command query gives "?" and a failed PPID query gives -1. The arguments are normalised. Age is the record's own clock reading minus `createTime`. Each optional attribute is Go's zero value when not requested, and on a failed query the source's sentinel: -1 for create time, threads and PGID, -1% for CPU, "?" for user, empty RSS and UIDs. |
| Records.UnrequestedAttributesIgnored | pkg/pstree/pstree.go:249-470 | Two collections that agree on PID, clock reading, arguments, command, PPID and every requested attribute produce the same record. Attributes that were not requested cannot influence the result. |
| Records.GetProcessByPid | pkg/pstree/pstree.go:53-61 | The lookup succeeds exactly when some record has the PID, and returns the first such record. Otherwise it fails with "the process with the PID n was not found". |
| Records.SortProcs | pkg/pstree/pstree.go:67-121 | Sorting by age, CPU, memory, username, PID or thread count returns a permutation of the input that is ascending in that attribute. Usernames use Go's byte-wise string order. |
| Records.SortedProcsInOrder | pkg/pstree/pstree.go:67-121 | Every permutation that an unstable sort may return lists the records in ascending attribute order. |
| Records.SortByPid | pkg/pstree/pstree.go:32-37 | Returns a permutation of the process handles in ascending PID order. |
| Records.GetProcesses | pkg/pstree/pstree.go:540-556 | There is exactly one generated record per collected process, as a multiset, each built from that process's own answers and clock reading. The PIDs ascend. |
| Records.GetProcessesDeterministic | pkg/pstree/pstree.go:540-556 | With unique PIDs, every admissible outcome of the unstable PID sort yields the same record list. |
| Ordering.LexLessMeaning | pkg/pstree/pstree.go:97-101 | The string order used for usernames holds exactly when one string is a proper prefix of the other, or the first differing character is smaller. |
| Ordering.SortIsUnique | pkg/pstree/pstree.go:32-37 | When keys are distinct, two sorts of the same sequence are equal. |
| Compact.InitCompactMode | pkg/pstree/compact.go:41-116 | Starting from an empty group table, each key (PPID, signature, owner) maps to a group holding exactly the indices of the nodes with that key, in order. The group's enabled aggregates (oldest age, summed CPU, RSS, threads) are computed over those nodes. The skip set is exactly the nodes that have an earlier node with the same key. |
| Compact.GroupsWellFormed | pkg/pstree/compact.go:82-97 | Every group is non-empty. Its count is its number of members, and its first index is its first member. |
| Compact.GroupsPartitionNodes | pkg/pstree/compact.go:55-114 | Every node belongs to the group of its own key and to no other. Member indices lie within the table and strictly increase. |
| Compact.SkipMeansNotFirst | pkg/pstree/compact.go:82-97 | A group's first index is its earliest member. A node is skipped exactly when an earlier node shares its key, which is exactly when it is not its group's first index. Only indices within the table are skipped. |
| Compact.ShouldSkipAfterInit | pkg/pstree/compact.go:133-135 | After grouping, the skip query holds exactly for the nodes that have an earlier node with the same key. It never holds for an index outside the table. |
| Compact.GroupCountsSumToNodes | pkg/pstree/compact.go:55-116 | The group counts add up to the number of nodes. |
| Compact.AggregatesIgnoreOrder | pkg/pstree/compact.go:100-111 | The group's age maximum and its CPU, memory and thread sums are the same over any rearrangement of its members. |
| Compact.GroupAgeIsOldest | pkg/pstree/compact.go:100-102 | With ages shown, the group age is non-negative and at least every member's age. Unless it is 0, it equals some member's age. |
| Compact.GetProcessCountAfterInit | pkg/pstree/compact.go:158-185 | After grouping, the first node with a key gets a report of all nodes with that key: count, PIDs in table order, and the enabled aggregates. Every later node with that key gets the neutral report `(1, [], 0, 0, 0, 0)`. |
| Compact.GetProcessCount | pkg/pstree/compact.go:158-185 | For any group table: a node that is the first index of the group of its key gets that group's count and totals, and the PIDs of the group's members in member order. Every other node, including one whose key has no group, gets `(1, [], 0, 0, 0, 0)`. |
| Compact.PIDsToString | pkg/pstree/compact.go:226-232 | The output has one string per PID, in order, and each string is that PID in decimal. |
| Compact.PIDsToStringRoundTrip | pkg/pstree/compact.go:226-232 | Parsing the rendered PIDs gives back the PIDs. |
| Compact.FormatCompactOutput | pkg/pstree/compact.go:204-206 | A count of at most 1 leaves the command unchanged. |
| Compact.FormatCompactOutputDecodes | pkg/pstree/compact.go:208-212 | For a count above 1, three things read back from the line, whatever the command's base name contains. The count reads back from before the first `*`. The name between `*[` and `]` is `filepath.Base` of the command. With PIDs shown, the list inside the trailing parentheses reads back as the PIDs, including the empty ` ()` for an empty list. Without them, the line has no such list. The decoders accept only the `%d` spelling of each number (see the next rows), so the count and PIDs are pinned as written, not just by value. |
| Compact.DecodeCountCanonical | pkg/pstree/compact.go:209 | The count of a line reads as `c` exactly when the text before the first `*` is the `%d` rendering of `c`. |
| Compact.ParseAllCanonical | pkg/pstree/compact.go:226-232 | A list of strings reads as the PIDs exactly when it is their `%d` rendering, element by element. |
| Text.DecimalRoundTrip | pkg/pstree/compact.go:229 | Every integer's decimal rendering parses back to the integer. |
| Text.ParseIntCanonical | pkg/pstree/compact.go:229 | A string parses to an integer exactly when it is that integer's `%d` rendering: there are no leading zeros, no "-0" and no sign on zero. |
| Text.SplitJoin | pkg/pstree/compact.go:210 | A non-empty list whose elements avoid the separator is recovered by splitting the joined string. |
| Text.BaseOfPath | pkg/pstree/compact.go:210 | The base of a non-empty, slash-free name is the name itself, and the base of `dir/name` is `name`. |
| Text.BaseIsOneElement | pkg/pstree/compact.go:210 | The base of any path is non-empty. It contains no `/` unless it is exactly "/", and taking the base again changes nothing. |
| Command.Validate | cmd/root.go:152-190 | Accepted flags break none of the eight rules. A rejection names a rule that is broken, and every rule checked before it holds. |
| Command.ErrorMessage | cmd/root.go:152-190 | The texts of the eight rules, of the order-by whitelist error (line 254) and of the missing-PID-1 lookup (pkg/pstree/pstree.go:59). Each error is recovered from its text, so no two errors share a text. |
| Command.ErrorMessagesDistinct | cmd/root.go:152-190 | Two errors have the same text exactly when they are the same error. |
| Command.AcceptedFlagsAreConsistent | cmd/root.go:140-190 | Take `stoi` to count a non-empty string as 1. Accepted flags then have: no `--user` with `--exclude-root`; at most one colour mode; at most one character set; at most one kind of transition marker; whitelisted colour attribute and scheme; an explicit level of at least 1; and no scheme together with a colour attribute or rainbow. |
| Command.ConflictsAreRejected | cmd/root.go:152-190 | Each conflicting combination is rejected, either by its own rule or by an earlier one. |
| Command.ParseOrderBy | cmd/root.go:252-283 | An order-by value names a sort key exactly when it is in the whitelist. Each name selects its own attribute: "age" the age, "cpu" the CPU percentage, "mem" the memory, "pid" the PID, "threads" the thread count and "user" the username. |
| Seqs.FilterKeepsPairwise | cmd/root.go:285-289 | Dropping records keeps the survivors in their relative order, so a sorted list stays sorted. |
| Command.PidOneFirstProperties | cmd/root.go:257-290 | This holds for every admissible sort outcome. The reordered list starts with the PID 1 record. The rest is ascending in the key and holds exactly the records whose PID is not 1. With unique PIDs, the list is a permutation of the input. |
| Command.OrderProcesses | cmd/root.go:257-290 | Ordering fails exactly when no record has PID 1. Otherwise the result starts with the record the PID lookup returns. The other records follow in key order, exactly those whose PID is not 1. With unique PIDs the result is a rearrangement of the input. |
| Command.RootRecordPresent | cmd/root.go:250-260 | A record for PID 1 exists exactly when the operating system reported PID 1. |
| Command.DeriveOptions | cmd/root.go:220-337 | `--show-all` and ordering by an attribute turn that attribute's display on. A colour scheme implies colour. Level 0 becomes 999. Compaction is on exactly when not disabled and there is no colour attribute and no contains filter. Every other option is copied from its flag: colour attribute and scheme, order-by, rainbow, contains, exclude-root, root PID, usernames, PGIDs, the three character sets, both transition markers and wide display. |
| Command.MiniOptions | cmd/root.go:234-248 | The collector fetches age, CPU and memory when their flag is set or when the order-by value or the colour attribute names them. It fetches threads for their flag or the order-by value, and usernames for the owner flag, user transitions or ordering by user. Process groups are fetched for PGIDs or PGLs, and UIDs for either transition marker. |
| Command.DisplayedAttributesAreFetched | cmd/root.go:234-304 | `--order-by` turns its attribute's display on only after collection. Even so, every attribute the final options show, sort on or colour by was fetched. |
| Command.Prepare | cmd/root.go:220-337 | Without order-by the run always succeeds and keeps the records in PID order. A value outside the whitelist fails with the invalid-order-by error. A whitelisted value succeeds exactly when the operating system reported PID 1, and otherwise fails with the missing-root error. On success the options are the derived ones. With an order-by key, the records start with the record the PID lookup returns for PID 1. The other records follow in ascending key order. When those records have unique PIDs, the result is a rearrangement of the PID-ordered list. |
| Command.PreparedRecordsArePermutation | cmd/root.go:250-290 | When the operating system reports each PID once, a successful run hands the tree builder a rearrangement of the collected records. None is lost or repeated, with or without `--order-by`. |
| Command.Run | cmd/root.go:152-337 | A failed flag rule is the result, before anything else happens. Any failure carries one of the eight rule errors exactly when the flags broke a rule. Once the flags validate, a run without order-by always succeeds, and a run with a whitelisted one succeeds exactly when PID 1 was reported. On success the flags passed every rule and the options are the derived ones. |

## Left out

- pkg/pstree/metrics.go is not part of this model. It holds the fetchers that `GenerateProcess` runs, one per attribute, each handing a query to the process library through a channel. The model receives their answers as `Collected` values.
- `ProcessCommandName` (pkg/pstree/metrics.go:42-79) never fails: its last fallback is `[PID n]`. The "?" command that `Records.GenerateProcess` gives on a failed query is therefore never reached in the program.
- `GetProcesses` exits through `log.Fatalf` when the process list cannot be read (pkg/pstree/pstree.go:546-549). The model takes the list as given.
- Channels: for each attribute, `GenerateProcess` starts a goroutine that only sends it a fetching closure over a channel, then calls that closure itself (for example pkg/pstree/pstree.go:179-181). The fetches therefore run one after another and never overlap. The model receives their answers as a value.
- The operating system, clock and terminal: the process list, the per-record readings of `util.GetUnixTimestamp` (pkg/pstree/pstree.go:492), screen width, colour support and installed memory become parameters or are omitted.
- Floating point: CPU percentages are integers in hundredths. Rounding in the float sums is not modelled. RSS is compared exactly, whereas the source compares it as float64, which is exact only below 2^53 bytes.
- Compact.InitCompactMode: the group sums are unbounded integers. The source's int32 thread sum and uint64 memory sum could wrap, but only with implausibly many or large processes.
- Compact.InitCompactMode: its properties assume an empty group table on entry. The source does not reset the table between calls.
- Records.GenerateProcess: memory info that was not requested is a nil pointer in the source. The model gives RSS 0.
- Memory info extras, memory percent (stored in the record at pkg/pstree/pstree.go:348-354 and 510) and the other attributes the source fetches but neither sorts, groups nor validates on are left out. Only the tree printer could read them, and it is not part of this model.
- Command.AcceptedFlagsAreConsistent: the definition of `util.StoI` is not part of this model. The colour-mode rule is therefore stated for an arbitrary `stoi`, and the consistency property assumes it counts a non-empty string as 1.
- The username-exclusion loop (cmd/root.go:206-218) is left out. It depends on the user database.
- Command.OrderProcesses: a missing PID 1 makes the source panic (cmd/root.go:257-260). The model returns the `RootProcessMissing` error instead, and the panic message and stack trace are not modelled.
- `--version` output and exit, cobra flag parsing, logging and the debug level are left out as I/O.
- Tree construction, marking, pruning and printing (`NewProcessTree` and the printers) are not part of this model. The `signature` of a record is computed by the tree builder, so a generated record carries "".
- A group's `FullPath` is always "" in the source, because the variable it is copied from is never assigned. It is not modelled.
- Text.Base: only `/` is treated as a path separator.

=== FILE: command.dfy ===
/** The command layer (cmd/root.go): the ordered flag-conflict rules, the order-by
    whitelist, the reordering that keeps PID 1 first, and the display options derived
    from the flags. Flag parsing itself is left to the caller: `Flags` holds the parsed
    values together with whether `--user` and `--level` were given explicitly. */
module Command {
  import opened Wrappers
  import Text
  import Ordering
  import Seqs
  import opened Records

  datatype Flags = Flags(
    userChanged: bool,
    usernames: seq<string>,
    excludeRoot: bool,
    color: bool,
    rainbow: bool,
    colorAttr: string,
    colorScheme: string,
    ibm850: bool,
    utf8: bool,
    vt100: bool,
    uidTransitions: bool,
    userTransitions: bool,
    levelChanged: bool,
    level: int,
    orderBy: string,
    compactNot: bool,
    contains: string,
    pid: int,
    showAll: bool,
    age: bool,
    arguments: bool,
    cpu: bool,
    memory: bool,
    showOwner: bool,
    showPGIDs: bool,
    showPGLs: bool,
    showPIDs: bool,
    showPPIDs: bool,
    threads: bool,
    wide: bool)

  datatype ConfigError =
    | UserWithExcludeRoot
    | ColorModeConflict
    | CharsetConflict
    | InvalidColorAttr
    | TransitionConflict
    | LevelTooLow
    | InvalidColorScheme
    | SchemeConflict
    | InvalidOrderBy
    | RootProcessMissing

  const ValidAttributes: seq<string> := ["age", "cpu", "mem"]
  const ValidColorSchemes: seq<string> := ["darwin", "linux", "powershell", "windows10", "xterm"]
  const ValidOrderBy: seq<string> := ["age", "cpu", "mem", "pid", "threads", "user"]

  /** Tells the command's error texts apart by their length and, where two texts have the
      same length, by their last character. */
  function ErrorFromMessage(m: string): Option<ConfigError> {
    var last := if |m| == 0 then ' ' else m[|m| - 1];
    match |m|
    case 36 => Some(LevelTooLow)
    case 40 => Some(RootProcessMissing)
    case 49 => if last == 'r' then Some(UserWithExcludeRoot) else Some(InvalidColorAttr)
    case 56 => Some(CharsetConflict)
    case 60 => if last == 'd' then Some(ColorModeConflict) else Some(SchemeConflict)
    case 64 => Some(TransitionConflict)
    case 67 => Some(InvalidOrderBy)
    case 81 => Some(InvalidColorScheme)
    case _ => None
  }

  /** "valid options for <flag> are: " followed by the whitelist joined with ", ". */
  function WhitelistError(flag: string, valid: seq<string>): (m: string)
    requires |valid| > 0 && |valid[|valid| - 1]| > 0
    ensures |m| == 24 + |flag| + |Text.Join(valid, ", ")|
    ensures m[|m| - 1] == valid[|valid| - 1][|valid[|valid| - 1]| - 1]
  {
    Text.JoinLastChar(valid, ", ");
    "valid options for " + flag + " are: " + Text.Join(valid, ", ")
  }

  /** The lengths of the three whitelists as the error texts list them. */
  lemma WhitelistTextLengths()
    ensures |Text.Join(ValidAttributes, ", ")| == 13
    ensures |Text.Join(ValidColorSchemes, ", ")| == 43
    ensures |Text.Join(ValidOrderBy, ", ")| == 33
  {
    var a, c, o := ValidAttributes, ValidColorSchemes, ValidOrderBy;
    assert |Text.Join(a[2..], ", ")| == 3;
    assert |Text.Join(a[1..], ", ")| == 8;
    assert |Text.Join(c[4..], ", ")| == 5;
    assert |Text.Join(c[3..], ", ")| == 16;
    assert |Text.Join(c[2..], ", ")| == 28;
    assert |Text.Join(c[1..], ", ")| == 35;
    assert |Text.Join(o[5..], ", ")| == 4;
    assert |Text.Join(o[4..], ", ")| == 13;
    assert |Text.Join(o[3..], ", ")| == 18;
    assert |Text.Join(o[2..], ", ")| == 23;
    assert |Text.Join(o[1..], ", ")| == 28;
  }

  /** The error text the command reports; each error has its own text. */
  function ErrorMessage(e: ConfigError): (m: string)
    ensures ErrorFromMessage(m) == Some(e)
  {
    if Rank(e) <= 4 then EarlyRuleText(e)
    else if Rank(e) <= 8 then LateRuleText(e)
    else OrderingText(e)
  }

  /** The texts of rules 1 to 4. */
  function EarlyRuleText(e: ConfigError): (m: string)
    requires Rank(e) <= 4
    ensures ErrorFromMessage(m) == Some(e)
  {
    match e
    case UserWithExcludeRoot => "--user and --exclude-root cannot be used together"
    case ColorModeConflict => "only one of --color-attr, --color, and --rainbow can be used"
    case CharsetConflict => "only one of --ibm-850, --utf-8, and --vt-100 can be used"
    case InvalidColorAttr =>
      WhitelistTextLengths();
      WhitelistError("--color-attr", ValidAttributes)
  }

  /** The texts of rules 5 to 8. */
  function LateRuleText(e: ConfigError): (m: string)
    requires 5 <= Rank(e) <= 8
    ensures ErrorFromMessage(m) == Some(e)
  {
    match e
    case TransitionConflict => "only one of --uid-transitions and --user-transitions can be used"
    case LevelTooLow => "--level cannot be set to less than 1"
    case InvalidColorScheme =>
      WhitelistTextLengths();
      WhitelistError("--color-scheme", ValidColorSchemes)
    case SchemeConflict => "--color-scheme cannot be used with --color-attr or --rainbow"
  }

  /** The texts of the two checks that follow the flag rules. */
  function OrderingText(e: ConfigError): (m: string)
    requires Rank(e) > 8
    ensures ErrorFromMessage(m) == Some(e)
  {
    match e
    case InvalidOrderBy =>
      WhitelistTextLengths();
      WhitelistError("--order-by", ValidOrderBy)
    case RootProcessMissing => NotFoundMessage(1)
  }

  /** Different errors are reported with different texts. */
  lemma ErrorMessagesDistinct(e1: ConfigError, e2: ConfigError)
    ensures ErrorMessage(e1) == ErrorMessage(e2) <==> e1 == e2
  {
  }

  function BtoI(b: bool): int {
    if b then 1 else 0
  }

  // ---------------------------------------------------------------------------
  // The eight conflict rules
  // ---------------------------------------------------------------------------

  /** The position of each check in the command: the eight flag rules first, then the
      order-by whitelist, then the lookup of PID 1. */
  function Rank(e: ConfigError): nat {
    match e
    case UserWithExcludeRoot => 1
    case ColorModeConflict => 2
    case CharsetConflict => 3
    case InvalidColorAttr => 4
    case TransitionConflict => 5
    case LevelTooLow => 6
    case InvalidColorScheme => 7
    case SchemeConflict => 8
    case InvalidOrderBy => 9
    case RootProcessMissing => 10
  }

  /** Whether the flags break the rule that raises `e`. `stoi` is the project's helper
      that counts a string flag as set. */
  predicate Violates(f: Flags, stoi: string -> int, e: ConfigError) {
    match e
    case UserWithExcludeRoot => f.userChanged && f.excludeRoot
    case ColorModeConflict => BtoI(f.color) + BtoI(f.rainbow) + stoi(f.colorAttr) > 1
    case CharsetConflict => BtoI(f.ibm850) + BtoI(f.utf8) + BtoI(f.vt100) > 1
    case InvalidColorAttr => f.colorAttr != "" && f.colorAttr !in ValidAttributes
    case TransitionConflict => BtoI(f.uidTransitions) + BtoI(f.userTransitions) > 1
    case LevelTooLow => f.levelChanged && f.level < 1
    case InvalidColorScheme => f.colorScheme != "" && f.colorScheme !in ValidColorSchemes
    case SchemeConflict => f.colorScheme != "" && (f.colorAttr != "" || f.rainbow)
    case InvalidOrderBy => false
    case RootProcessMissing => false
  }

  /** The flag-conflict checks of the command, in source order. */
  function Validate(f: Flags, stoi: string -> int): (r: Outcome<ConfigError>)
    ensures r.Pass? ==> forall e :: !Violates(f, stoi, e)
    ensures r.Fail? ==> Violates(f, stoi, r.error)
    ensures r.Fail? ==> forall e :: Rank(e) < Rank(r.error) ==> !Violates(f, stoi, e)
  {
    if f.userChanged && f.excludeRoot then Fail(UserWithExcludeRoot)
    else if BtoI(f.color) + BtoI(f.rainbow) + stoi(f.colorAttr) > 1 then Fail(ColorModeConflict)
    else if BtoI(f.ibm850) + BtoI(f.utf8) + BtoI(f.vt100) > 1 then Fail(CharsetConflict)
    else if f.colorAttr != "" && f.colorAttr !in ValidAttributes then Fail(InvalidColorAttr)
    else if BtoI(f.uidTransitions) + BtoI(f.userTransitions) > 1 then Fail(TransitionConflict)
    else if f.levelChanged && f.level < 1 then Fail(LevelTooLow)
    else if f.colorScheme != "" && f.colorScheme !in ValidColorSchemes then Fail(InvalidColorScheme)
    else if f.colorScheme != "" && (f.colorAttr != "" || f.rainbow) then Fail(SchemeConflict)
    else Pass
  }

  /** The helper counts a string flag as set exactly when it is non-empty. */
  ghost predicate CountsNonEmpty(stoi: string -> int) {
    forall s :: stoi(s) == (if s == "" then 0 else 1)
  }

  /** Accepted flags are consistent: at most one colour mode, one character set and one
      transition marker; whitelisted colour attribute and scheme; an explicit level of at
      least 1; and a scheme only without colour attribute or rainbow. */
  lemma AcceptedFlagsAreConsistent(f: Flags, stoi: string -> int)
    requires CountsNonEmpty(stoi)
    requires Validate(f, stoi).Pass?
    ensures !(f.userChanged && f.excludeRoot)
    ensures BtoI(f.color) + BtoI(f.rainbow) + BtoI(f.colorAttr != "") <= 1
    ensures BtoI(f.ibm850) + BtoI(f.utf8) + BtoI(f.vt100) <= 1
    ensures f.colorAttr == "" || f.colorAttr in ValidAttributes
    ensures !(f.uidTransitions && f.userTransitions)
    ensures f.levelChanged ==> f.level >= 1
    ensures f.colorScheme == "" || f.colorScheme in ValidColorSchemes
    ensures f.colorScheme != "" ==> f.colorAttr == "" && !f.rainbow
  {
    assert !Violates(f, stoi, UserWithExcludeRoot) && !Violates(f, stoi, ColorModeConflict);
    assert !Violates(f, stoi, CharsetConflict) && !Violates(f, stoi, InvalidColorAttr);
    assert !Violates(f, stoi, TransitionConflict) && !Violates(f, stoi, LevelTooLow);
    assert !Violates(f, stoi, InvalidColorScheme) && !Violates(f, stoi, SchemeConflict);
    assert stoi(f.colorAttr) == BtoI(f.colorAttr != "");
  }

  /** Each conflict is rejected, by its own rule unless an earlier rule already fires. */
  lemma ConflictsAreRejected(f: Flags, stoi: string -> int)
    requires CountsNonEmpty(stoi)
    ensures f.userChanged && f.excludeRoot ==> Validate(f, stoi) == Fail(UserWithExcludeRoot)
    ensures BtoI(f.color) + BtoI(f.rainbow) + BtoI(f.colorAttr != "") > 1 ==>
      Validate(f, stoi).Fail? && Validate(f, stoi).error in {UserWithExcludeRoot, ColorModeConflict}
    ensures BtoI(f.ibm850) + BtoI(f.utf8) + BtoI(f.vt100) > 1 ==>
      Validate(f, stoi).Fail? && Rank(Validate(f, stoi).error) <= 3
    ensures f.uidTransitions && f.userTransitions ==>
      Validate(f, stoi).Fail? && Rank(Validate(f, stoi).error) <= 5
    ensures f.levelChanged && f.level < 1 ==>
      Validate(f, stoi).Fail? && Rank(Validate(f, stoi).error) <= 6
    ensures f.colorScheme != "" && (f.colorAttr != "" || f.rainbow) ==> Validate(f, stoi).Fail?
  {
    assert stoi(f.colorAttr) == BtoI(f.colorAttr != "");
  }

  // ---------------------------------------------------------------------------
  // Order-by and the PID-1-first reordering
  // ---------------------------------------------------------------------------

  /** Some record has PID `pid`. */
  predicate HasPid(s: seq<Process>, pid: int) {
    exists i :: 0 <= i < |s| && s[i].pid == pid
  }

  /** No two records share a PID. */
  predicate UniquePids(s: seq<Process>) {
    forall i, j :: 0 <= i < j < |s| ==> s[i].pid != s[j].pid
  }

  /** The operating system reported a process with PID `pid`. */
  predicate ReportsPid(collected: seq<Collected>, pid: int) {
    exists j :: 0 <= j < |collected| && collected[j].pid == pid
  }

  /** The sort key named by an order-by value. */
  function ParseOrderBy(s: string): (k: Option<SortKey>)
    ensures k.Some? <==> s in ValidOrderBy
    ensures k == Some(ByAge) <==> s == "age"
    ensures k == Some(ByCpu) <==> s == "cpu"
    ensures k == Some(ByMemory) <==> s == "mem"
    ensures k == Some(ByPid) <==> s == "pid"
    ensures k == Some(ByThreads) <==> s == "threads"
    ensures k == Some(ByUsername) <==> s == "user"
  {
    if s == "age" then Some(ByAge)
    else if s == "cpu" then Some(ByCpu)
    else if s == "mem" then Some(ByMemory)
    else if s == "pid" then Some(ByPid)
    else if s == "threads" then Some(ByThreads)
    else if s == "user" then Some(ByUsername)
    else None
  }

  /** The records whose PID differs from `pid`, in their original order. */
  function WithoutPid(s: seq<Process>, pid: int): seq<Process> {
    Seqs.Filter(s, (p: Process) => p.pid != pid)
  }

  /** The records whose PID is `pid`, in their original order. */
  function WithPid(s: seq<Process>, pid: int): seq<Process> {
    Seqs.Filter(s, (p: Process) => p.pid == pid)
  }

  /** Every record is kept by exactly one of the two filters. */
  lemma SplitByPid(s: seq<Process>, pid: int)
    ensures multiset(s) == multiset(WithPid(s, pid)) + multiset(WithoutPid(s, pid))
    ensures forall x :: x in WithoutPid(s, pid) <==> x in s && x.pid != pid
  {
    Seqs.FilterMultiset(s, (p: Process) => p.pid == pid);
    Seqs.FilterMultiset(s, (p: Process) => p.pid != pid);
  }

  /** With unique PIDs, only `first` carries PID 1. */
  lemma {:induction false} UniquePidOne(s: seq<Process>, first: Process)
    requires UniquePids(s)
    requires first in s && first.pid == 1
    ensures WithPid(s, 1) == [first]
    decreases |s|
  {
    if s[0] == first {
      assert forall i :: 0 <= i < |s[1..]| ==> s[1..][i].pid != 1 by {
        assert forall i :: 0 < i < |s| ==> s[i].pid != s[0].pid;
      }
      NoPidOne(s[1..]);
    } else {
      UniquePidOne(s[1..], first);
    }
  }

  lemma {:induction false} NoPidOne(s: seq<Process>)
    requires forall i :: 0 <= i < |s| ==> s[i].pid != 1
    ensures WithPid(s, 1) == []
    decreases |s|
  {
    if |s| > 0 {
      NoPidOne(s[1..]);
    }
  }

  /** The record for PID 1 followed by the sorted records whose PID is not 1. */
  function PutPidOneFirst(first: Process, sorted: seq<Process>): seq<Process> {
    [first] + WithoutPid(sorted, 1)
  }

  /** Sorting does not change which records lack PID 1. */
  lemma RestIsOthers(procs: seq<Process>, sorted: seq<Process>)
    requires multiset(sorted) == multiset(procs)
    ensures multiset(WithoutPid(sorted, 1)) == multiset(WithoutPid(procs, 1))
  {
    Seqs.FilterMultiset(sorted, (p: Process) => p.pid != 1);
    Seqs.FilterMultiset(procs, (p: Process) => p.pid != 1);
  }

  /** The reordering applied for `--order-by`. Go's sort is not stable, so this holds for
      every admissible outcome `sorted` of sorting `procs`: PID 1's record comes first,
      then exactly the other records in key order; with unique PIDs nothing is lost or
      duplicated. */
  lemma PidOneFirstProperties(procs: seq<Process>, k: SortKey, sorted: seq<Process>, first: Process)
    requires Ordering.IsSortOf(procs, ProcKey(k), sorted)
    requires GetProcessByPid(procs, 1) == Success(first)
    ensures var r := PutPidOneFirst(first, sorted);
      && r[0] == first && first.pid == 1
      && (forall i, j :: 1 <= i < j < |r| ==> InOrder(k, r[i], r[j]))
      && multiset(r[1..]) == multiset(WithoutPid(procs, 1))
    ensures UniquePids(procs) ==> multiset(PutPidOneFirst(first, sorted)) == multiset(procs)
  {
    var r := PutPidOneFirst(first, sorted);
    var rest := WithoutPid(sorted, 1);
    assert r[1..] == rest;
    var le := (p: Process, q: Process) => InOrder(k, p, q);
    SortedProcsInOrder(procs, k, sorted);
    assert Seqs.Pairwise(sorted, le);
    Seqs.FilterKeepsPairwise(sorted, (p: Process) => p.pid != 1, le);
    forall i, j | 1 <= i < j < |r|
      ensures InOrder(k, r[i], r[j])
    {
      assert r[i] == rest[i - 1] && r[j] == rest[j - 1];
      assert le(rest[i - 1], rest[j - 1]);
    }
    RestIsOthers(procs, sorted);
    if UniquePids(procs) {
      UniquePidOne(procs, first);
      SplitByPid(procs, 1);
    }
  }

  /** Sorting for `--order-by`: fails as the source's panic does when there is no PID 1. */
  function OrderProcesses(procs: seq<Process>, k: SortKey): (r: Result<seq<Process>, ConfigError>)
    ensures r.Failure? <==> !HasPid(procs, 1)
    ensures r.Failure? ==> r.error == RootProcessMissing
    ensures r.Success? ==> (&& GetProcessByPid(procs, 1).Success?
      && |r.value| > 0 && r.value[0] == GetProcessByPid(procs, 1).value && r.value[0].pid == 1
      && (forall i, j :: 1 <= i < j < |r.value| ==> InOrder(k, r.value[i], r.value[j]))
      && multiset(r.value[1..]) == multiset(WithoutPid(procs, 1)))
    ensures r.Success? && UniquePids(procs) ==> multiset(r.value) == multiset(procs)
  {
    match GetProcessByPid(procs, 1)
    case Failure(_) => Failure(RootProcessMissing)
    case Success(first) =>
      var sorted := SortProcs(procs, k);
      PidOneFirstProperties(procs, k, sorted, first);
      Success(PutPidOneFirst(first, sorted))
  }

  // ---------------------------------------------------------------------------
  // Derived settings
  // ---------------------------------------------------------------------------

  /** `--show-all` turns on every annotation except PGIDs and the transition markers. */
  function ExpandShowAll(f: Flags): Flags {
    f.(age := f.age || f.showAll,
       arguments := f.arguments || f.showAll,
       cpu := f.cpu || f.showAll,
       memory := f.memory || f.showAll,
       showOwner := f.showOwner || f.showAll,
       showPGLs := f.showPGLs || f.showAll,
       showPIDs := f.showPIDs || f.showAll,
       showPPIDs := f.showPPIDs || f.showAll,
       threads := f.threads || f.showAll)
  }

  /** The options handed to the collector, which decide what it fetches: each optional
      attribute when its flag is set, and also when the order-by value or the colour
      attribute names it. */
  function MiniOptions(f: Flags): (o: DisplayOptions)
    ensures WantsAge(o) <==> f.age || f.orderBy == "age" || f.colorAttr == "age"
    ensures WantsCpu(o) <==> f.cpu || f.orderBy == "cpu" || f.colorAttr == "cpu"
    ensures WantsMemory(o) <==> f.memory || f.orderBy == "mem" || f.colorAttr == "mem"
    ensures WantsThreads(o) <==> f.threads || f.orderBy == "threads"
    ensures WantsUsername(o) <==> f.showOwner || f.userTransitions || f.orderBy == "user"
    ensures WantsPgid(o) <==> f.showPGIDs || f.showPGLs
    ensures WantsUids(o) <==> f.uidTransitions || f.userTransitions
  {
    ZeroOptions.(
      colorAttr := f.colorAttr,
      orderBy := f.orderBy,
      showArguments := f.arguments,
      showCpuPercent := f.cpu,
      showMemoryUsage := f.memory,
      showNumThreads := f.threads,
      showOwner := f.showOwner,
      showPGIDs := f.showPGIDs,
      showPGLs := f.showPGLs,
      showProcessAge := f.age,
      showUIDTransitions := f.uidTransitions,
      showUserTransitions := f.userTransitions,
      usernames := f.usernames)
  }

  /** Ordering by an attribute also displays it. */
  function ShowOrderKey(f: Flags, k: Option<SortKey>): Flags {
    f.(age := f.age || k == Some(ByAge),
       cpu := f.cpu || k == Some(ByCpu),
       memory := f.memory || k == Some(ByMemory),
       showPIDs := f.showPIDs || k == Some(ByPid),
       threads := f.threads || k == Some(ByThreads),
       showOwner := f.showOwner || k == Some(ByUsername))
  }

  /** The last adjustments: a colour scheme implies colour, level 0 means unlimited (999),
      and a colour attribute or a contains filter turns compaction off. */
  function Finalise(f: Flags): DisplayOptions {
    var g := f.(
      color := f.color || f.colorScheme != "",
      level := if f.level == 0 then 999 else f.level,
      compactNot := f.compactNot || f.colorAttr != "" || f.contains != "");
    DisplayOptions(
      colorAttr := g.colorAttr,
      colorizeOutput := g.color,
      colorScheme := g.colorScheme,
      compactMode := !g.compactNot,
      contains := g.contains,
      excludeRoot := g.excludeRoot,
      ibm850Graphics := g.ibm850,
      maxDepth := g.level,
      orderBy := g.orderBy,
      rainbowOutput := g.rainbow,
      rootPid := g.pid,
      showArguments := g.arguments,
      showCpuPercent := g.cpu,
      showMemoryUsage := g.memory,
      showNumThreads := g.threads,
      showOwner := g.showOwner,
      showPGIDs := g.showPGIDs,
      showPGLs := g.showPGLs,
      showPIDs := g.showPIDs,
      showPPIDs := g.showPPIDs,
      showProcessAge := g.age,
      showUIDTransitions := g.uidTransitions,
      showUserTransitions := g.userTransitions,
      usernames := g.usernames,
      utf8Graphics := g.utf8,
      vt100Graphics := g.vt100,
      wideDisplay := g.wide)
  }

  /** The display options for flags `f` whose order-by value names key `k` (or is empty). */
  function DeriveOptions(f: Flags, k: Option<SortKey>): (o: DisplayOptions)
    ensures o.maxDepth == (if f.level == 0 then 999 else f.level)
    ensures o.colorizeOutput <==> f.color || f.colorScheme != ""
    ensures o.compactMode <==> !f.compactNot && f.colorAttr == "" && f.contains == ""
    ensures o.showProcessAge <==> f.age || f.showAll || k == Some(ByAge)
    ensures o.showCpuPercent <==> f.cpu || f.showAll || k == Some(ByCpu)
    ensures o.showMemoryUsage <==> f.memory || f.showAll || k == Some(ByMemory)
    ensures o.showPIDs <==> f.showPIDs || f.showAll || k == Some(ByPid)
    ensures o.showNumThreads <==> f.threads || f.showAll || k == Some(ByThreads)
    ensures o.showOwner <==> f.showOwner || f.showAll || k == Some(ByUsername)
    ensures o.showArguments <==> f.arguments || f.showAll
    ensures o.showPGLs <==> f.showPGLs || f.showAll
    ensures o.showPPIDs <==> f.showPPIDs || f.showAll
    ensures o.showPGIDs == f.showPGIDs
    ensures o.colorAttr == f.colorAttr && o.colorScheme == f.colorScheme && o.orderBy == f.orderBy
    ensures o.rainbowOutput == f.rainbow && o.contains == f.contains && o.excludeRoot == f.excludeRoot
    ensures o.rootPid == f.pid && o.usernames == f.usernames
    ensures o.ibm850Graphics == f.ibm850 && o.utf8Graphics == f.utf8 && o.vt100Graphics == f.vt100
    ensures o.showUIDTransitions == f.uidTransitions && o.showUserTransitions == f.userTransitions
    ensures o.wideDisplay == f.wide
  {
    Finalise(ShowOrderKey(ExpandShowAll(f), k))
  }

  /** Although `--order-by` turns its attribute's display on only after collection, every
      attribute the final options show, sort on or colour by was fetched by the collector. */
  lemma DisplayedAttributesAreFetched(f: Flags)
    ensures var o := MiniOptions(ExpandShowAll(f));
      var d := DeriveOptions(f, ParseOrderBy(f.orderBy));
      && (d.showProcessAge || ParseOrderBy(f.orderBy) == Some(ByAge) || d.colorAttr == "age" ==> WantsAge(o))
      && (d.showCpuPercent || ParseOrderBy(f.orderBy) == Some(ByCpu) || d.colorAttr == "cpu" ==> WantsCpu(o))
      && (d.showMemoryUsage || ParseOrderBy(f.orderBy) == Some(ByMemory) || d.colorAttr == "mem" ==> WantsMemory(o))
      && (d.showNumThreads || ParseOrderBy(f.orderBy) == Some(ByThreads) ==> WantsThreads(o))
      && (d.showOwner || d.showUserTransitions || ParseOrderBy(f.orderBy) == Some(ByUsername) ==> WantsUsername(o))
      && (d.showPGIDs || d.showPGLs ==> WantsPgid(o))
      && (d.showUIDTransitions || d.showUserTransitions ==> WantsUids(o))
  {
  }

  /** Generating a record keeps the PID. */
  lemma GeneratedPids(collected: seq<Collected>, opts: DisplayOptions)
    ensures var generated := Seqs.MapSeq(Generate(opts), collected);
      forall j :: 0 <= j < |collected| ==> generated[j].pid == collected[j].pid
  {
    var generated := Seqs.MapSeq(Generate(opts), collected);
    forall j | 0 <= j < |collected|
      ensures generated[j].pid == collected[j].pid
    {
      assert generated[j] == GenerateProcess(collected[j], opts);
    }
  }

  lemma PidOnePermuted(procs: seq<Process>, generated: seq<Process>, collected: seq<Collected>)
    requires multiset(procs) == multiset(generated)
    requires |generated| == |collected|
    requires forall j :: 0 <= j < |collected| ==> generated[j].pid == collected[j].pid
    ensures HasPid(procs, 1) <==> ReportsPid(collected, 1)
  {
    if i :| 0 <= i < |procs| && procs[i].pid == 1 {
      assert procs[i] in multiset(generated);
      var j :| 0 <= j < |generated| && generated[j] == procs[i];
      assert collected[j].pid == 1;
    }
    if j :| 0 <= j < |collected| && collected[j].pid == 1 {
      assert generated[j] in multiset(procs);
      var i :| 0 <= i < |procs| && procs[i] == generated[j];
      assert procs[i].pid == 1;
    }
  }

  /** The operating system reported each PID at most once. */
  predicate UniqueReportedPids(collected: seq<Collected>) {
    forall i, j :: 0 <= i < j < |collected| ==> collected[i].pid != collected[j].pid
  }

  /** PIDs reported once each give records with unique PIDs. */
  lemma UniqueRecords(collected: seq<Collected>, opts: DisplayOptions)
    ensures UniqueReportedPids(collected) ==> UniquePids(GetProcesses(collected, opts))
  {
    if UniqueReportedPids(collected) {
      var generated := Seqs.MapSeq(Generate(opts), collected);
      var procs := GetProcesses(collected, opts);
      var pidOf := (p: Process) => p.pid;
      GeneratedPids(collected, opts);
      assert Seqs.InjectiveOn(generated, pidOf) by {
        forall i, j | 0 <= i < j < |generated|
          ensures pidOf(generated[i]) != pidOf(generated[j])
        {
          assert collected[i].pid != collected[j].pid;
        }
      }
      Seqs.InjectivePermutation(generated, procs, pidOf);
      forall i, j | 0 <= i < j < |procs|
        ensures procs[i].pid != procs[j].pid
      {
        assert pidOf(procs[i]) != pidOf(procs[j]);
      }
    }
  }

  /** A record for PID 1 exists exactly when the operating system reported PID 1. */
  lemma RootRecordPresent(collected: seq<Collected>, opts: DisplayOptions)
    ensures HasPid(GetProcesses(collected, opts), 1) <==> ReportsPid(collected, 1)
  {
    GeneratedPids(collected, opts);
    PidOnePermuted(GetProcesses(collected, opts), Seqs.MapSeq(Generate(opts), collected), collected);
  }

  /** The records and options the tree is built from. */
  datatype Prepared = Prepared(options: DisplayOptions, processes: seq<Process>)

  /** The records handed to the tree builder, given the PID-ordered records `procs`: the
      same list without order-by, otherwise the record GetProcessByPid finds for PID 1
      followed by the others in ascending order of the key, which with unique PIDs is a
      rearrangement of `procs`. */
  ghost predicate OrderedAsRequested(orderBy: string, ps: seq<Process>, procs: seq<Process>) {
    if orderBy == "" then ps == procs
    else
      && ParseOrderBy(orderBy).Some?
      && GetProcessByPid(procs, 1).Success?
      && |ps| > 0 && ps[0] == GetProcessByPid(procs, 1).value && ps[0].pid == 1
      && (forall i, j :: 1 <= i < j < |ps| ==> InOrder(ParseOrderBy(orderBy).value, ps[i], ps[j]))
      && multiset(ps[1..]) == multiset(WithoutPid(procs, 1))
      && (UniquePids(procs) ==> multiset(ps) == multiset(procs))
  }

  /** The steps after validation: expand `--show-all`, collect one record per process in
      PID order, apply `--order-by`, and derive the display options. An order-by value
      outside the whitelist is reported before a missing PID 1. */
  function Prepare(f: Flags, collected: seq<Collected>): (r: Result<Prepared, ConfigError>)
    ensures f.orderBy == "" ==> r.Success?
    ensures f.orderBy != "" && f.orderBy !in ValidOrderBy ==> r == Failure(InvalidOrderBy)
    ensures f.orderBy in ValidOrderBy ==> (r.Success? <==> ReportsPid(collected, 1))
    ensures r.Failure? && f.orderBy in ValidOrderBy ==> r.error == RootProcessMissing
    ensures r.Success? ==> r.value.options == DeriveOptions(f, ParseOrderBy(f.orderBy))
    ensures r.Success? ==> OrderedAsRequested(f.orderBy, r.value.processes,
      GetProcesses(collected, MiniOptions(ExpandShowAll(f))))
  {
    var f1 := ExpandShowAll(f);
    var procs := GetProcesses(collected, MiniOptions(f1));
    if f1.orderBy == "" then Success(Prepared(DeriveOptions(f, None), procs))
    else
      match ParseOrderBy(f1.orderBy)
      case None => Failure(InvalidOrderBy)
      case Some(k) =>
        RootRecordPresent(collected, MiniOptions(f1));
        match OrderProcesses(procs, k)
        case Failure(e) => Failure(e)
        case Success(ordered) => Success(Prepared(DeriveOptions(f, Some(k)), ordered))
  }

  /** When the operating system reports each PID once, the records handed to the tree
      builder are a rearrangement of the collected ones: none is lost or repeated. */
  lemma PreparedRecordsArePermutation(f: Flags, collected: seq<Collected>)
    requires UniqueReportedPids(collected)
    ensures Prepare(f, collected).Success? ==>
      multiset(Prepare(f, collected).value.processes)
        == multiset(GetProcesses(collected, MiniOptions(ExpandShowAll(f))))
  {
    var r := Prepare(f, collected);
    if r.Success? {
      var procs := GetProcesses(collected, MiniOptions(ExpandShowAll(f)));
      UniqueRecords(collected, MiniOptions(ExpandShowAll(f)));
      assert OrderedAsRequested(f.orderBy, r.value.processes, procs);
    }
  }

  /** The command up to building the tree: the flag rules are checked first, and only
      flags that pass them reach collection and ordering. `collected` stands for the
      operating system's answers, each with the clock reading taken for its record. */
  function Run(f: Flags, stoi: string -> int, collected: seq<Collected>): (r: Result<Prepared, ConfigError>)
    ensures Validate(f, stoi).Fail? ==> r == Failure(Validate(f, stoi).error)
    ensures r.Failure? ==> (Validate(f, stoi).Fail? <==> Rank(r.error) <= 8)
    ensures r.Success? ==> (&& Validate(f, stoi).Pass?
      && r.value.options == DeriveOptions(f, ParseOrderBy(f.orderBy))
      && OrderedAsRequested(f.orderBy, r.value.processes,
           GetProcesses(collected, MiniOptions(ExpandShowAll(f)))))
    ensures Validate(f, stoi).Pass? && f.orderBy == "" ==> r.Success?
    ensures Validate(f, stoi).Pass? && f.orderBy in ValidOrderBy ==> (r.Success? <==> ReportsPid(collected, 1))
  {
    match Validate(f, stoi)
    case Fail(e) => Failure(e)
    case Pass => Prepare(f, collected)
  }
}

=== FILE: compact.dfy ===
/** Compact mode (pkg/pstree/compact.go): nodes with the same parent PID, signature and
    owner are collected into one group; the first such node represents the group and the
    others are skipped when printing. The source keeps the groups and the skip set in
    global maps; here they are the explicit value `Compaction`. */
module Compact {
  import opened Wrappers
  import Seqs
  import Text
  import opened Records

  /** Grouping key: parent PID, signature (command and arguments), owner. */
  type GroupKey = (int, string, string)

  function GroupKeyOf(p: Process): GroupKey {
    (p.ppid, p.signature, p.username)
  }

  /** A group of identical processes. `indices` are node-table positions in the order the
      nodes were met; `age` is the oldest member's age and the other three are sums, each
      gathered only while the matching display flag is on. */
  datatype ProcessGroup = ProcessGroup(
    count: int,
    firstIndex: int,
    indices: seq<int>,
    owner: string,
    age: int,
    cpuPercent: int,
    memoryUsage: nat,
    numThreads: int)

  /** The grouping state: the group table and the set of node indices not to print. */
  datatype Compaction = Compaction(groups: map<GroupKey, ProcessGroup>, skip: set<int>)

  /** Folds node `n` into its group's aggregates, according to the display flags. */
  function Aggregate(g: ProcessGroup, n: Process, opts: DisplayOptions): ProcessGroup {
    g.(
      age := if opts.showProcessAge then (if n.age > g.age then n.age else g.age) else g.age,
      cpuPercent := if opts.showCpuPercent then g.cpuPercent + n.cpuPercent else g.cpuPercent,
      memoryUsage := if opts.showMemoryUsage then g.memoryUsage + n.rss else g.memoryUsage,
      numThreads := if opts.showNumThreads then g.numThreads + n.numThreads else g.numThreads)
  }

  /** One iteration of the grouping loop, for node `i`. */
  function AddNode(st: Compaction, nodes: seq<Process>, opts: DisplayOptions, i: nat): Compaction
    requires i < |nodes|
  {
    if i in st.skip then st
    else
      var n := nodes[i];
      var key := GroupKeyOf(n);
      if key !in st.groups then
        var g := ProcessGroup(1, i, [i], n.username, 0, 0, 0, 0);
        Compaction(st.groups[key := Aggregate(g, n, opts)], st.skip)
      else
        var prev := st.groups[key];
        var g := prev.(count := prev.count + 1, indices := prev.indices + [i]);
        Compaction(st.groups[key := Aggregate(g, n, opts)], st.skip + {i})
  }

  /** The state after the loop has visited nodes 0 .. k-1, starting from group table
      `groups0` and an empty skip set. */
  function CompactPrefix(nodes: seq<Process>, opts: DisplayOptions, groups0: map<GroupKey, ProcessGroup>, k: nat): Compaction
    requires k <= |nodes|
    decreases k
  {
    if k == 0 then Compaction(groups0, {})
    else AddNode(CompactPrefix(nodes, opts, groups0, k - 1), nodes, opts, k - 1)
  }

  // ---------------------------------------------------------------------------
  // Reference definitions
  // ---------------------------------------------------------------------------

  /** Indices below `k` whose node has key `key`, ascending. */
  function Members(nodes: seq<Process>, key: GroupKey, k: nat): seq<int>
    requires k <= |nodes|
    decreases k
  {
    if k == 0 then []
    else Members(nodes, key, k - 1) + (if GroupKeyOf(nodes[k - 1]) == key then [k - 1] else [])
  }

  /** Node `j` has a node with the same key somewhere before it. */
  ghost predicate HasEarlierTwin(nodes: seq<Process>, j: int)
    requires 0 <= j < |nodes|
  {
    exists i :: 0 <= i < j && GroupKeyOf(nodes[i]) == GroupKeyOf(nodes[j])
  }

  datatype Metric = Age | Cpu | Memory | Threads

  function MetricOf(p: Process, m: Metric): int {
    match m
    case Age => p.age
    case Cpu => p.cpuPercent
    case Memory => p.rss
    case Threads => p.numThreads
  }

  predicate ValidIndices(idx: seq<int>, n: nat) {
    forall i :: 0 <= i < |idx| ==> 0 <= idx[i] < n
  }

  /** The metric of each indexed node, in index order. */
  function Values(nodes: seq<Process>, idx: seq<int>, m: Metric): (vs: seq<int>)
    requires ValidIndices(idx, |nodes|)
    ensures |vs| == |idx|
  {
    if |idx| == 0 then []
    else Values(nodes, idx[..|idx| - 1], m) + [MetricOf(nodes[idx[|idx| - 1]], m)]
  }

  /** Entry `j` of the values is the metric of the node at `idx[j]`. */
  lemma {:induction false} ValuesAt(nodes: seq<Process>, idx: seq<int>, m: Metric, j: int)
    requires ValidIndices(idx, |nodes|)
    requires 0 <= j < |idx|
    ensures Values(nodes, idx, m)[j] == MetricOf(nodes[idx[j]], m)
    decreases |idx|
  {
    if j < |idx| - 1 {
      ValuesAt(nodes, idx[..|idx| - 1], m, j);
    }
  }

  /** The group's shape: exactly the members `ms` in index order, the first of them as
      representative, and the key's owner. */
  ghost predicate GroupShape(g: ProcessGroup, ms: seq<int>, key: GroupKey) {
    && |ms| > 0
    && g.count == |ms|
    && g.firstIndex == ms[0]
    && g.indices == ms
    && g.owner == key.2
  }

  /** The group's aggregates over members `ms`: the oldest age (never below 0) and the
      sums, each for an enabled flag only and 0 otherwise. */
  ghost predicate GroupTotals(g: ProcessGroup, nodes: seq<Process>, opts: DisplayOptions, ms: seq<int>)
    requires ValidIndices(ms, |nodes|)
  {
    && g.age == (if opts.showProcessAge then Seqs.MaxFromZero(Values(nodes, ms, Age)) else 0)
    && g.cpuPercent == (if opts.showCpuPercent then Seqs.Sum(Values(nodes, ms, Cpu)) else 0)
    && g.memoryUsage == (if opts.showMemoryUsage then Seqs.Sum(Values(nodes, ms, Memory)) else 0)
    && g.numThreads == (if opts.showNumThreads then Seqs.Sum(Values(nodes, ms, Threads)) else 0)
  }

  /** What the group for `key` must hold after nodes 0 .. k-1 were visited. */
  ghost predicate GroupAgrees(g: ProcessGroup, nodes: seq<Process>, opts: DisplayOptions, key: GroupKey, k: nat)
    requires k <= |nodes|
  {
    var ms := Members(nodes, key, k);
    && ValidIndices(ms, |nodes|)
    && GroupShape(g, ms, key)
    && GroupTotals(g, nodes, opts, ms)
  }

  ghost predicate KeysAgree(st: Compaction, nodes: seq<Process>, k: nat)
    requires k <= |nodes|
  {
    forall key :: key in st.groups <==> |Members(nodes, key, k)| > 0
  }

  ghost predicate GroupsAgree(st: Compaction, nodes: seq<Process>, opts: DisplayOptions, k: nat)
    requires k <= |nodes|
  {
    forall key :: key in st.groups ==> GroupAgrees(st.groups[key], nodes, opts, key, k)
  }

  ghost predicate SkipAgrees(st: Compaction, nodes: seq<Process>, k: nat)
    requires k <= |nodes|
  {
    forall j :: j in st.skip <==> 0 <= j < k && HasEarlierTwin(nodes, j)
  }

  /** The state after visiting nodes 0 .. k-1 from an empty table. */
  ghost predicate Invariant(st: Compaction, nodes: seq<Process>, opts: DisplayOptions, k: nat)
    requires k <= |nodes|
  {
    KeysAgree(st, nodes, k) && GroupsAgree(st, nodes, opts, k) && SkipAgrees(st, nodes, k)
  }

  // ---------------------------------------------------------------------------
  // Facts about the reference definitions
  // ---------------------------------------------------------------------------

  /** Members holds exactly the indices below `k` with key `key`, strictly ascending. */
  lemma {:induction false} MembersMeaning(nodes: seq<Process>, key: GroupKey, k: nat)
    requires k <= |nodes|
    ensures forall j :: j in Members(nodes, key, k) <==> 0 <= j < k && GroupKeyOf(nodes[j]) == key
    ensures ValidIndices(Members(nodes, key, k), k)
    ensures forall a, b :: 0 <= a < b < |Members(nodes, key, k)| ==>
      Members(nodes, key, k)[a] < Members(nodes, key, k)[b]
    decreases k
  {
    if k > 0 {
      MembersMeaning(nodes, key, k - 1);
    }
  }

  lemma ValuesSnoc(nodes: seq<Process>, idx: seq<int>, i: int, m: Metric)
    requires ValidIndices(idx, |nodes|) && 0 <= i < |nodes|
    ensures ValidIndices(idx + [i], |nodes|)
    ensures Values(nodes, idx + [i], m) == Values(nodes, idx, m) + [MetricOf(nodes[i], m)]
  {
    assert (idx + [i])[..|idx|] == idx;
  }

  lemma SumSnoc(s: seq<int>, x: int)
    ensures Seqs.Sum(s + [x]) == Seqs.Sum(s) + x
  {
    assert (s + [x])[..|s|] == s;
  }

  lemma MaxSnoc(s: seq<int>, x: int)
    ensures Seqs.MaxFromZero(s + [x]) == (if x > Seqs.MaxFromZero(s) then x else Seqs.MaxFromZero(s))
  {
    assert (s + [x])[..|s|] == s;
  }

  /** Aggregating node `k` into a group whose totals cover `ms` makes them cover `ms + [k]`. */
  lemma TotalsSnoc(g: ProcessGroup, nodes: seq<Process>, opts: DisplayOptions, ms: seq<int>, k: nat)
    requires ValidIndices(ms, |nodes|) && k < |nodes|
    requires GroupTotals(g, nodes, opts, ms)
    ensures ValidIndices(ms + [k], |nodes|)
    ensures GroupTotals(Aggregate(g, nodes[k], opts), nodes, opts, ms + [k])
  {
    var n := nodes[k];
    ValuesSnoc(nodes, ms, k, Age);
    ValuesSnoc(nodes, ms, k, Cpu);
    ValuesSnoc(nodes, ms, k, Memory);
    ValuesSnoc(nodes, ms, k, Threads);
    SumSnoc(Values(nodes, ms, Cpu), n.cpuPercent);
    SumSnoc(Values(nodes, ms, Memory), n.rss);
    SumSnoc(Values(nodes, ms, Threads), n.numThreads);
    MaxSnoc(Values(nodes, ms, Age), n.age);
  }

  lemma MembersSnoc(nodes: seq<Process>, key: GroupKey, k: nat)
    requires k < |nodes|
    ensures Members(nodes, key, k + 1) ==
      if GroupKeyOf(nodes[k]) == key then Members(nodes, key, k) + [k] else Members(nodes, key, k)
  {
  }

  /** A new group for node `k` agrees with the reference. */
  lemma NewGroupAgrees(nodes: seq<Process>, opts: DisplayOptions, k: nat)
    requires k < |nodes|
    requires |Members(nodes, GroupKeyOf(nodes[k]), k)| == 0
    ensures var n := nodes[k];
      GroupAgrees(Aggregate(ProcessGroup(1, k, [k], n.username, 0, 0, 0, 0), n, opts), nodes, opts, GroupKeyOf(n), k + 1)
  {
    var n := nodes[k];
    var key := GroupKeyOf(n);
    MembersSnoc(nodes, key, k);
    assert Members(nodes, key, k + 1) == [] + [k];
    var g := ProcessGroup(1, k, [k], n.username, 0, 0, 0, 0);
    assert GroupTotals(g, nodes, opts, []);
    TotalsSnoc(g, nodes, opts, [], k);
  }

  /** Extending an agreeing group with node `k` keeps it agreeing. */
  lemma ExtendedGroupAgrees(g: ProcessGroup, nodes: seq<Process>, opts: DisplayOptions, k: nat)
    requires k < |nodes|
    requires GroupAgrees(g, nodes, opts, GroupKeyOf(nodes[k]), k)
    ensures GroupAgrees(Aggregate(g.(count := g.count + 1, indices := g.indices + [k]), nodes[k], opts),
      nodes, opts, GroupKeyOf(nodes[k]), k + 1)
  {
    var key := GroupKeyOf(nodes[k]);
    var ms := Members(nodes, key, k);
    MembersSnoc(nodes, key, k);
    var g' := g.(count := g.count + 1, indices := g.indices + [k]);
    assert GroupTotals(g', nodes, opts, ms);
    TotalsSnoc(g', nodes, opts, ms, k);
  }

  lemma TwinIffMembers(nodes: seq<Process>, k: nat)
    requires k < |nodes|
    ensures HasEarlierTwin(nodes, k) <==> |Members(nodes, GroupKeyOf(nodes[k]), k)| > 0
  {
    var key := GroupKeyOf(nodes[k]);
    MembersMeaning(nodes, key, k);
    var ms := Members(nodes, key, k);
    if HasEarlierTwin(nodes, k) {
      var i :| 0 <= i < k && GroupKeyOf(nodes[i]) == key;
      assert i in ms;
    }
    if |ms| > 0 {
      assert ms[0] in ms;
    }
  }

  lemma AddNodeKeys(st: Compaction, nodes: seq<Process>, opts: DisplayOptions, k: nat)
    requires k < |nodes| && k !in st.skip
    requires KeysAgree(st, nodes, k)
    ensures KeysAgree(AddNode(st, nodes, opts, k), nodes, k + 1)
  {
    var st' := AddNode(st, nodes, opts, k);
    assert st'.groups.Keys == st.groups.Keys + {GroupKeyOf(nodes[k])};
    forall other
      ensures other in st'.groups <==> |Members(nodes, other, k + 1)| > 0
    {
      MembersSnoc(nodes, other, k);
    }
  }

  lemma AddNodeGroups(st: Compaction, nodes: seq<Process>, opts: DisplayOptions, k: nat)
    requires k < |nodes| && k !in st.skip
    requires KeysAgree(st, nodes, k) && GroupsAgree(st, nodes, opts, k)
    ensures GroupsAgree(AddNode(st, nodes, opts, k), nodes, opts, k + 1)
  {
    var key := GroupKeyOf(nodes[k]);
    var st' := AddNode(st, nodes, opts, k);
    forall other | other in st'.groups
      ensures GroupAgrees(st'.groups[other], nodes, opts, other, k + 1)
    {
      if other == key {
        if key !in st.groups {
          NewGroupAgrees(nodes, opts, k);
        } else {
          ExtendedGroupAgrees(st.groups[key], nodes, opts, k);
        }
      } else {
        MembersSnoc(nodes, other, k);
        assert st'.groups[other] == st.groups[other];
      }
    }
  }

  lemma AddNodeSkip(st: Compaction, nodes: seq<Process>, opts: DisplayOptions, k: nat)
    requires k < |nodes| && k !in st.skip
    requires KeysAgree(st, nodes, k) && SkipAgrees(st, nodes, k)
    ensures SkipAgrees(AddNode(st, nodes, opts, k), nodes, k + 1)
  {
    TwinIffMembers(nodes, k);
    var st' := AddNode(st, nodes, opts, k);
    assert forall j :: j in st'.skip <==> j in st.skip || (j == k && HasEarlierTwin(nodes, k));
  }

  /** One loop iteration keeps the invariant; the loop's skip test never fires. */
  lemma AddNodePreserves(st: Compaction, nodes: seq<Process>, opts: DisplayOptions, k: nat)
    requires k < |nodes|
    requires Invariant(st, nodes, opts, k)
    ensures k !in st.skip
    ensures Invariant(AddNode(st, nodes, opts, k), nodes, opts, k + 1)
  {
    AddNodeKeys(st, nodes, opts, k);
    AddNodeGroups(st, nodes, opts, k);
    AddNodeSkip(st, nodes, opts, k);
  }

  lemma {:induction false} PrefixInvariant(nodes: seq<Process>, opts: DisplayOptions, k: nat)
    requires k <= |nodes|
    ensures Invariant(CompactPrefix(nodes, opts, map[], k), nodes, opts, k)
    decreases k
  {
    if k > 0 {
      PrefixInvariant(nodes, opts, k - 1);
      AddNodePreserves(CompactPrefix(nodes, opts, map[], k - 1), nodes, opts, k - 1);
    }
  }

  // ---------------------------------------------------------------------------
  // The grouping pass and its properties
  // ---------------------------------------------------------------------------

  /** InitCompactMode: one pass over the node table in index order. The source does not
      clear the group table first, so it is a parameter; every property below is for a
      pass that starts from an empty table. */
  function InitCompactMode(nodes: seq<Process>, opts: DisplayOptions, groups0: map<GroupKey, ProcessGroup>): (st: Compaction)
    ensures groups0 == map[] ==> Invariant(st, nodes, opts, |nodes|)
  {
    if groups0 == map[] then
      PrefixInvariant(nodes, opts, |nodes|);
      CompactPrefix(nodes, opts, groups0, |nodes|)
    else
      CompactPrefix(nodes, opts, groups0, |nodes|)
  }

  /** ShouldSkipProcess: whether node `i` is folded into an earlier representative. */
  predicate ShouldSkipProcess(st: Compaction, i: int) {
    i in st.skip
  }

  /** After the grouping pass, ShouldSkipProcess holds for exactly the nodes that have an
      earlier node with the same key, and for no index outside the table. */
  lemma ShouldSkipAfterInit(nodes: seq<Process>, opts: DisplayOptions, i: int)
    ensures ShouldSkipProcess(InitCompactMode(nodes, opts, map[]), i) <==>
      0 <= i < |nodes| && HasEarlierTwin(nodes, i)
  {
    SkipMeansNotFirst(nodes, opts);
  }

  /** Every group's count is its number of members and its representative is its first
      member. */
  lemma GroupsWellFormed(nodes: seq<Process>, opts: DisplayOptions)
    ensures var st := InitCompactMode(nodes, opts, map[]);
      forall key :: key in st.groups ==>
        && |st.groups[key].indices| > 0
        && st.groups[key].count == |st.groups[key].indices|
        && st.groups[key].firstIndex == st.groups[key].indices[0]
  {
  }

  /** The groups partition the node table: each node is in the group of its own key and in
      no other, and each group lists its members in strictly increasing index order. */
  lemma GroupsPartitionNodes(nodes: seq<Process>, opts: DisplayOptions)
    ensures var st := InitCompactMode(nodes, opts, map[]);
      && (forall i :: 0 <= i < |nodes| ==>
            GroupKeyOf(nodes[i]) in st.groups && i in st.groups[GroupKeyOf(nodes[i])].indices)
      && (forall key, j :: key in st.groups && j in st.groups[key].indices ==>
            0 <= j < |nodes| && GroupKeyOf(nodes[j]) == key)
      && (forall key, a, b :: key in st.groups && 0 <= a < b < |st.groups[key].indices| ==>
            st.groups[key].indices[a] < st.groups[key].indices[b])
  {
    var st := InitCompactMode(nodes, opts, map[]);
    forall key
      ensures key in st.groups ==> st.groups[key].indices == Members(nodes, key, |nodes|)
      ensures forall j :: j in Members(nodes, key, |nodes|) <==> 0 <= j < |nodes| && GroupKeyOf(nodes[j]) == key
      ensures forall a, b :: 0 <= a < b < |Members(nodes, key, |nodes|)| ==>
        Members(nodes, key, |nodes|)[a] < Members(nodes, key, |nodes|)[b]
    {
      MembersMeaning(nodes, key, |nodes|);
    }
    forall i | 0 <= i < |nodes|
      ensures GroupKeyOf(nodes[i]) in st.groups
    {
      assert i in Members(nodes, GroupKeyOf(nodes[i]), |nodes|);
    }
  }

  /** The first node with a key is its group's representative, and a node is skipped
      exactly when an earlier node has the same key, that is, when it is not the
      representative. */
  lemma SkipMeansNotFirst(nodes: seq<Process>, opts: DisplayOptions)
    ensures var st := InitCompactMode(nodes, opts, map[]);
      && (forall key, j :: key in st.groups && 0 <= j < |nodes| && GroupKeyOf(nodes[j]) == key ==>
            st.groups[key].firstIndex <= j)
      && (forall i :: 0 <= i < |nodes| ==>
            (ShouldSkipProcess(st, i) <==> HasEarlierTwin(nodes, i)))
      && (forall i :: 0 <= i < |nodes| ==> (GroupKeyOf(nodes[i]) in st.groups &&
            (ShouldSkipProcess(st, i) <==> i != st.groups[GroupKeyOf(nodes[i])].firstIndex)))
      && (forall i :: ShouldSkipProcess(st, i) ==> 0 <= i < |nodes|)
  {
    var st := InitCompactMode(nodes, opts, map[]);
    var n := |nodes|;
    GroupsPartitionNodes(nodes, opts);
    forall key, j | key in st.groups && 0 <= j < n && GroupKeyOf(nodes[j]) == key
      ensures st.groups[key].firstIndex <= j
    {
      var ms := Members(nodes, key, n);
      MembersMeaning(nodes, key, n);
      var p :| 0 <= p < |ms| && ms[p] == j;
      if p > 0 {
        assert ms[0] < ms[p];
      }
    }
    forall i | 0 <= i < n
      ensures ShouldSkipProcess(st, i) <==> i != st.groups[GroupKeyOf(nodes[i])].firstIndex
    {
      var key := GroupKeyOf(nodes[i]);
      var f := st.groups[key].firstIndex;
      assert f in st.groups[key].indices;
      if HasEarlierTwin(nodes, i) {
        var e :| 0 <= e < i && GroupKeyOf(nodes[e]) == key;
        assert f <= e;
      } else {
        assert f <= i;
        assert GroupKeyOf(nodes[f]) == key;
      }
    }
  }

  // Sum of the counts of all groups in a table.

  ghost function PickKey(m: map<GroupKey, ProcessGroup>): GroupKey
    requires m != map[]
  {
    var key :| key in m; key
  }

  ghost function TotalCount(m: map<GroupKey, ProcessGroup>): int
    decreases |m|
  {
    if m == map[] then 0
    else
      var key := PickKey(m);
      m[key].count + TotalCount(m - {key})
  }

  /** TotalCount does not depend on which key it picks first. */
  lemma {:induction false} TotalCountRemove(m: map<GroupKey, ProcessGroup>, key: GroupKey)
    requires key in m
    ensures TotalCount(m) == m[key].count + TotalCount(m - {key})
    decreases |m|
  {
    var picked := PickKey(m);
    if picked != key {
      var m1 := m - {picked};
      var m2 := m - {key};
      assert |m1| < |m| by { assert m1.Keys < m.Keys; }
      TotalCountRemove(m1, key);
      assert |m2| < |m| by { assert m2.Keys < m.Keys; }
      TotalCountRemove(m2, picked);
      assert m1 - {key} == m2 - {picked};
    }
  }

  lemma AddNodeCount(st: Compaction, nodes: seq<Process>, opts: DisplayOptions, k: nat)
    requires k < |nodes| && k !in st.skip
    ensures TotalCount(AddNode(st, nodes, opts, k).groups) == TotalCount(st.groups) + 1
  {
    var key := GroupKeyOf(nodes[k]);
    var m := st.groups;
    var m' := AddNode(st, nodes, opts, k).groups;
    TotalCountRemove(m', key);
    assert m' - {key} == m - {key};
    if key in m {
      TotalCountRemove(m, key);
    } else {
      assert m - {key} == m;
    }
  }

  lemma {:induction false} PrefixCount(nodes: seq<Process>, opts: DisplayOptions, k: nat)
    requires k <= |nodes|
    ensures TotalCount(CompactPrefix(nodes, opts, map[], k).groups) == k
    decreases k
  {
    if k > 0 {
      var prev := CompactPrefix(nodes, opts, map[], k - 1);
      assert CompactPrefix(nodes, opts, map[], k) == AddNode(prev, nodes, opts, k - 1);
      PrefixCount(nodes, opts, k - 1);
      PrefixNotSkipped(nodes, opts, k - 1);
      AddNodeCount(prev, nodes, opts, k - 1);
    }
  }

  /** The fold never meets a node it has already marked. */
  lemma PrefixNotSkipped(nodes: seq<Process>, opts: DisplayOptions, k: nat)
    requires k < |nodes|
    ensures k !in CompactPrefix(nodes, opts, map[], k).skip
  {
    PrefixInvariant(nodes, opts, k);
    AddNodePreserves(CompactPrefix(nodes, opts, map[], k), nodes, opts, k);
  }

  /** The group counts add up to the number of nodes. */
  lemma GroupCountsSumToNodes(nodes: seq<Process>, opts: DisplayOptions)
    ensures TotalCount(InitCompactMode(nodes, opts, map[]).groups) == |nodes|
  {
    PrefixCount(nodes, opts, |nodes|);
  }

  // Order independence of the aggregates.

  function MetricAt(nodes: seq<Process>, m: Metric): int -> int {
    (j: int) => if 0 <= j < |nodes| then MetricOf(nodes[j], m) else 0
  }

  lemma {:induction false} ValuesAsMap(nodes: seq<Process>, idx: seq<int>, m: Metric)
    requires ValidIndices(idx, |nodes|)
    ensures Values(nodes, idx, m) == Seqs.MapSeq(MetricAt(nodes, m), idx)
    decreases |idx|
  {
    if |idx| > 0 {
      ValuesAsMap(nodes, idx[..|idx| - 1], m);
    }
  }

  lemma ValuesPermutation(nodes: seq<Process>, a: seq<int>, b: seq<int>, m: Metric)
    requires ValidIndices(a, |nodes|) && ValidIndices(b, |nodes|)
    requires multiset(a) == multiset(b)
    ensures multiset(Values(nodes, a, m)) == multiset(Values(nodes, b, m))
  {
    ValuesAsMap(nodes, a, m);
    ValuesAsMap(nodes, b, m);
    Seqs.MapSeqPermutation(MetricAt(nodes, m), a, b);
  }

  /** The aggregates do not depend on the order in which members were added: they are the
      same over any rearrangement of a group's members. */
  lemma AggregatesIgnoreOrder(g: ProcessGroup, nodes: seq<Process>, opts: DisplayOptions, ms: seq<int>, perm: seq<int>)
    requires ValidIndices(ms, |nodes|) && ValidIndices(perm, |nodes|)
    requires multiset(perm) == multiset(ms)
    requires GroupTotals(g, nodes, opts, ms)
    ensures GroupTotals(g, nodes, opts, perm)
  {
    ValuesPermutation(nodes, ms, perm, Age);
    ValuesPermutation(nodes, ms, perm, Cpu);
    ValuesPermutation(nodes, ms, perm, Memory);
    ValuesPermutation(nodes, ms, perm, Threads);
    Seqs.MaxFromZeroPermutation(Values(nodes, ms, Age), Values(nodes, perm, Age));
    Seqs.SumPermutation(Values(nodes, ms, Cpu), Values(nodes, perm, Cpu));
    Seqs.SumPermutation(Values(nodes, ms, Memory), Values(nodes, perm, Memory));
    Seqs.SumPermutation(Values(nodes, ms, Threads), Values(nodes, perm, Threads));
  }

  /** The group age is never negative and bounds every member's age; it is that of some
      member unless it is 0. */
  lemma GroupAgeIsOldest(nodes: seq<Process>, opts: DisplayOptions, key: GroupKey)
    requires opts.showProcessAge
    requires key in InitCompactMode(nodes, opts, map[]).groups
    ensures var g := InitCompactMode(nodes, opts, map[]).groups[key];
      && g.age >= 0
      && (forall j :: j in g.indices ==> 0 <= j < |nodes| && nodes[j].age <= g.age)
      && (g.age == 0 || exists j :: j in g.indices && 0 <= j < |nodes| && nodes[j].age == g.age)
  {
    var g := InitCompactMode(nodes, opts, map[]).groups[key];
    var ms := g.indices;
    var vs := Values(nodes, ms, Age);
    Seqs.MaxFromZeroIsBound(vs);
    ValuesAsMap(nodes, ms, Age);
    forall j | j in ms
      ensures 0 <= j < |nodes| && nodes[j].age <= g.age
    {
      var p :| 0 <= p < |ms| && ms[p] == j;
      assert vs[p] == nodes[j].age;
    }
    if g.age != 0 {
      var p :| 0 <= p < |vs| && vs[p] == g.age;
      assert ms[p] in ms;
    }
  }

  // ---------------------------------------------------------------------------
  // Group queries and output
  // ---------------------------------------------------------------------------

  /** What GetProcessCount reports for one node: member count, member PIDs, oldest age,
      and summed CPU, memory and threads. */
  datatype GroupCount = GroupCount(
    count: int,
    pids: seq<int>,
    age: int,
    cpuPercent: int,
    memoryUsage: nat,
    numThreads: int)

  const NotRepresentative := GroupCount(1, [], 0, 0, 0, 0)

  /** PIDs of the indexed nodes, in index order. */
  function PidsAt(nodes: seq<Process>, idx: seq<int>): (pids: seq<int>)
    requires ValidIndices(idx, |nodes|)
    ensures |pids| == |idx|
    ensures forall j :: 0 <= j < |idx| ==> pids[j] == nodes[idx[j]].pid
  {
    seq(|idx|, j requires 0 <= j < |idx| => nodes[idx[j]].pid)
  }

  /** The source indexes the node table with the member indices of node `i`'s group
      only when `i` is that group's representative. */
  predicate RepresentedIndicesValid(nodes: seq<Process>, groups: map<GroupKey, ProcessGroup>, i: int)
    requires 0 <= i < |nodes|
  {
    var key := GroupKeyOf(nodes[i]);
    key in groups && groups[key].firstIndex == i ==> ValidIndices(groups[key].indices, |nodes|)
  }

  /** GetProcessCount: the group report for a representative, the neutral report for any
      other node. */
  function GetProcessCount(nodes: seq<Process>, groups: map<GroupKey, ProcessGroup>, i: int): (r: GroupCount)
    requires 0 <= i < |nodes|
    requires RepresentedIndicesValid(nodes, groups, i)
    ensures var key := GroupKeyOf(nodes[i]);
      key in groups && groups[key].firstIndex == i ==>
        var g := groups[key];
        && r.count == g.count && |r.pids| == |g.indices|
        && (forall j :: 0 <= j < |g.indices| ==> r.pids[j] == nodes[g.indices[j]].pid)
        && r.age == g.age && r.cpuPercent == g.cpuPercent
        && r.memoryUsage == g.memoryUsage && r.numThreads == g.numThreads
    ensures var key := GroupKeyOf(nodes[i]);
      !(key in groups && groups[key].firstIndex == i) ==> r == NotRepresentative
  {
    var key := GroupKeyOf(nodes[i]);
    if key in groups && groups[key].firstIndex == i then
      var g := groups[key];
      GroupCount(g.count, PidsAt(nodes, g.indices), g.age, g.cpuPercent, g.memoryUsage, g.numThreads)
    else NotRepresentative
  }

  /** The report GetProcessCount should give for the first node of a key: one entry per
      node with that key, and the enabled aggregates over them. */
  ghost predicate ReportAgrees(r: GroupCount, nodes: seq<Process>, opts: DisplayOptions, ms: seq<int>)
    requires ValidIndices(ms, |nodes|)
  {
    && r.count == |ms| == |r.pids| >= 1
    && r.pids == PidsAt(nodes, ms)
    && r.age == (if opts.showProcessAge then Seqs.MaxFromZero(Values(nodes, ms, Age)) else 0)
    && r.cpuPercent == (if opts.showCpuPercent then Seqs.Sum(Values(nodes, ms, Cpu)) else 0)
    && r.memoryUsage == (if opts.showMemoryUsage then Seqs.Sum(Values(nodes, ms, Memory)) else 0)
    && r.numThreads == (if opts.showNumThreads then Seqs.Sum(Values(nodes, ms, Threads)) else 0)
  }

  /** A node is the first of its key exactly when no earlier node shares the key. */
  lemma FirstMemberIffNoTwin(nodes: seq<Process>, i: int)
    requires 0 <= i < |nodes|
    ensures var ms := Members(nodes, GroupKeyOf(nodes[i]), |nodes|);
      |ms| > 0 && (ms[0] == i <==> !HasEarlierTwin(nodes, i))
  {
    var key := GroupKeyOf(nodes[i]);
    var ms := Members(nodes, key, |nodes|);
    MembersMeaning(nodes, key, |nodes|);
    assert i in ms;
    var p :| 0 <= p < |ms| && ms[p] == i;
    assert ms[0] in ms;
    if p > 0 {
      assert ms[0] < ms[p];
      assert 0 <= ms[0] < i && GroupKeyOf(nodes[ms[0]]) == key;
    }
    if HasEarlierTwin(nodes, i) {
      var e :| 0 <= e < i && GroupKeyOf(nodes[e]) == key;
      assert e in ms;
      var q :| 0 <= q < |ms| && ms[q] == e;
      assert ms[0] <= e by {
        if q > 0 {
          assert ms[0] < ms[q];
        }
      }
    }
  }

  /** After the grouping pass, the group of node `i`'s key exists and agrees with the
      reference definitions. */
  lemma InitGroupAgrees(nodes: seq<Process>, opts: DisplayOptions, i: int)
    requires 0 <= i < |nodes|
    ensures var st := InitCompactMode(nodes, opts, map[]);
      var key := GroupKeyOf(nodes[i]);
      key in st.groups && GroupAgrees(st.groups[key], nodes, opts, key, |nodes|)
  {
    var st := InitCompactMode(nodes, opts, map[]);
    var key := GroupKeyOf(nodes[i]);
    MembersMeaning(nodes, key, |nodes|);
    assert i in Members(nodes, key, |nodes|);
    assert KeysAgree(st, nodes, |nodes|) && GroupsAgree(st, nodes, opts, |nodes|);
  }

  /** After the grouping pass, a node's report is the reference report of all nodes
      sharing its key when it is the first of them, and the neutral one otherwise. */
  lemma GetProcessCountAfterInit(nodes: seq<Process>, opts: DisplayOptions, i: int)
    requires 0 <= i < |nodes|
    ensures var st := InitCompactMode(nodes, opts, map[]);
      RepresentedIndicesValid(nodes, st.groups, i)
    ensures var st := InitCompactMode(nodes, opts, map[]);
      var ms := Members(nodes, GroupKeyOf(nodes[i]), |nodes|);
      && ValidIndices(ms, |nodes|)
      && (HasEarlierTwin(nodes, i) ==> GetProcessCount(nodes, st.groups, i) == NotRepresentative)
      && (!HasEarlierTwin(nodes, i) ==> ReportAgrees(GetProcessCount(nodes, st.groups, i), nodes, opts, ms))
  {
    var st := InitCompactMode(nodes, opts, map[]);
    var key := GroupKeyOf(nodes[i]);
    InitGroupAgrees(nodes, opts, i);
    FirstMemberIffNoTwin(nodes, i);
    var g := st.groups[key];
    var ms := Members(nodes, key, |nodes|);
    assert GroupShape(g, ms, key) && GroupTotals(g, nodes, opts, ms);
  }

  /** PIDsToString: the decimal rendering of each PID, in order. */
  function PIDsToString(pids: seq<int>): (strs: seq<string>)
    ensures |strs| == |pids|
    ensures forall i :: 0 <= i < |pids| ==> strs[i] == Text.DecimalString(pids[i])
  {
    Seqs.MapSeq(Text.DecimalString, pids)
  }

  /** Reads a list of decimal integers; None if any element is not one. */
  function ParseAll(strs: seq<string>): (r: Option<seq<int>>)
    ensures r.Some? ==> |r.value| == |strs|
  {
    if |strs| == 0 then Some([])
    else
      match (Text.ParseInt(strs[0]), ParseAll(strs[1..]))
      case (Some(x), Some(xs)) => Some([x] + xs)
      case _ => None
  }

  /** The rendered PIDs read back as the PIDs. */
  lemma {:induction false} PIDsToStringRoundTrip(pids: seq<int>)
    ensures ParseAll(PIDsToString(pids)) == Some(pids)
    decreases |pids|
  {
    if |pids| > 0 {
      Text.DecimalRoundTrip(pids[0]);
      PIDsToStringRoundTrip(pids[1..]);
      assert PIDsToString(pids)[1..] == PIDsToString(pids[1..]);
      assert [pids[0]] + pids[1..] == pids;
    }
  }

  /** A list of strings reads as `pids` exactly when it is the `%d` rendering of `pids`. */
  lemma ParseAllCanonical(strs: seq<string>, pids: seq<int>)
    ensures ParseAll(strs) == Some(pids) <==> strs == PIDsToString(pids)
  {
    PIDsToStringRoundTrip(pids);
    if ParseAll(strs) == Some(pids) {
      forall i | 0 <= i < |strs|
        ensures strs[i] == Text.DecimalString(pids[i])
      {
        ParsedElement(strs, pids, i);
        Text.ParseIntCanonical(strs[i], pids[i]);
      }
    }
  }

  /** Element `i` of a parsed list is what element `i` of the strings parses to. */
  lemma {:induction false} ParsedElement(strs: seq<string>, pids: seq<int>, i: int)
    requires ParseAll(strs) == Some(pids)
    requires 0 <= i < |strs|
    ensures Text.ParseInt(strs[i]) == Some(pids[i])
    decreases i
  {
    var x := Text.ParseInt(strs[0]);
    var xs := ParseAll(strs[1..]);
    assert x.Some? && xs.Some? && pids == [x.value] + xs.value;
    if i > 0 {
      ParsedElement(strs[1..], pids[1..], i - 1);
    }
  }

  /** FormatCompactOutput: the command unchanged for a single process, otherwise
      `<count>*[<base name>]`, followed by ` (<pid>,<pid>,...)` when PIDs are shown. */
  function FormatCompactOutput(command: string, count: int, pids: seq<int>, showPIDs: bool): (line: string)
    ensures count <= 1 ==> line == command
  {
    if count <= 1 then command
    else
      var head := Text.DecimalString(count) + "*[" + Text.Base(command) + "]";
      if showPIDs then head + " (" + Text.Join(PIDsToString(pids), ",") + ")" else head
  }

  /** The count in front of the first '*' of a compact line. */
  function DecodeCount(line: string): Option<int> {
    Text.ParseInt(Text.TakeUntil(line, '*'))
  }

  /** A line's count reads as `c` exactly when the text before its first '*' is the `%d`
      rendering of `c`: no other spelling of the count is accepted. */
  lemma DecodeCountCanonical(line: string, c: int)
    ensures DecodeCount(line) == Some(c) <==> Text.TakeUntil(line, '*') == Text.DecimalString(c)
  {
    Text.ParseIntCanonical(Text.TakeUntil(line, '*'), c);
  }

  /** The PID list between the last '(' of a compact line and its closing ')'; an empty
      pair of parentheses reads as no PIDs. */
  function DecodePids(line: string): Option<seq<int>> {
    if |line| > 0 && line[|line| - 1] == ')' then
      var field := Text.AfterLast(line[..|line| - 1], '(');
      if field == "" then Some([]) else ParseAll(Text.Split(field, ','))
    else None
  }

  /** The name between "*[" and "]" of a compact line. With PIDs shown, the line is first
      cut before its last '(' and the name frame ends in "] ". */
  function DecodeName(line: string, showPIDs: bool): Option<string> {
    var rest := Text.DropThrough(line, '*');
    var framed := if showPIDs then Text.BeforeLast(rest, '(') else rest;
    var close := if showPIDs then "] " else "]";
    if |framed| > |close| && framed[0] == '[' && framed[|framed| - |close|..] == close then
      Some(framed[1..|framed| - |close|])
    else None
  }

  lemma NoSymbolInDecimal(n: int, c: char)
    requires c != '-' && !Text.IsDigit(c)
    ensures c !in Text.DecimalString(n)
  {
    Text.DecimalCharacters(n);
  }

  /** A group line gives back its count and, exactly when PIDs are shown, its PID list:
      whatever the command's base name contains cannot be confused with either. */
  lemma FormatCompactOutputDecodes(command: string, count: int, pids: seq<int>, showPIDs: bool)
    requires count > 1
    ensures DecodeCount(FormatCompactOutput(command, count, pids, showPIDs)) == Some(count)
    ensures showPIDs ==> DecodePids(FormatCompactOutput(command, count, pids, showPIDs)) == Some(pids)
    ensures !showPIDs ==> DecodePids(FormatCompactOutput(command, count, pids, showPIDs)) == None
    ensures DecodeName(FormatCompactOutput(command, count, pids, showPIDs), showPIDs) == Some(Text.Base(command))
  {
    CountDecodes(command, count, pids, showPIDs);
    NameDecodes(command, count, pids, showPIDs);
    if showPIDs {
      PidsDecode(command, count, pids);
    }
  }

  lemma CountDecodes(command: string, count: int, pids: seq<int>, showPIDs: bool)
    requires count > 1
    ensures DecodeCount(FormatCompactOutput(command, count, pids, showPIDs)) == Some(count)
  {
    var line := FormatCompactOutput(command, count, pids, showPIDs);
    var d := Text.DecimalString(count);
    var rest := "[" + Text.Base(command) + "]" + (if showPIDs then " (" + Text.Join(PIDsToString(pids), ",") + ")" else "");
    assert line == d + ['*'] + rest;
    NoSymbolInDecimal(count, '*');
    Text.TakeUntilOfConcat(d, '*', rest);
    Text.DecimalRoundTrip(count);
  }

  /** The name between the brackets is the base name of the command, even when that base
      name itself holds '*', '(' or brackets. */
  lemma NameDecodes(command: string, count: int, pids: seq<int>, showPIDs: bool)
    requires count > 1
    ensures DecodeName(FormatCompactOutput(command, count, pids, showPIDs), showPIDs) == Some(Text.Base(command))
  {
    if showPIDs {
      NameDecodesWithPids(command, count, pids);
    } else {
      NameDecodesPlain(command, count, pids);
    }
  }

  lemma NameDecodesPlain(command: string, count: int, pids: seq<int>)
    requires count > 1
    ensures DecodeName(FormatCompactOutput(command, count, pids, false), false) == Some(Text.Base(command))
  {
    var d := Text.DecimalString(count);
    var frame := "[" + Text.Base(command) + "]";
    assert FormatCompactOutput(command, count, pids, false) == d + ['*'] + frame;
    NoSymbolInDecimal(count, '*');
    Text.DropThroughOfConcat(d, '*', frame);
    FrameReadsBack(Text.Base(command), "]");
  }

  lemma NameDecodesWithPids(command: string, count: int, pids: seq<int>)
    requires count > 1
    ensures DecodeName(FormatCompactOutput(command, count, pids, true), true) == Some(Text.Base(command))
  {
    var joined := Text.Join(PIDsToString(pids), ",");
    LineWithPids(command, count, pids);
    NoSymbolInDecimal(count, '*');
    RenderedPidsAvoid(pids);
    assert '(' !in joined + ")";
    DecodeNameWithPidsOf(Text.DecimalString(count), Text.Base(command), joined + ")");
  }

  /** The layout of a group line with PIDs shown, as the pieces the decoders split at. */
  lemma LineWithPids(command: string, count: int, pids: seq<int>)
    requires count > 1
    ensures FormatCompactOutput(command, count, pids, true)
      == Text.DecimalString(count) + ['*']
         + (("[" + Text.Base(command) + "] ") + ['('] + (Text.Join(PIDsToString(pids), ",") + ")"))
  {
    LayoutWithPids(Text.DecimalString(count), Text.Base(command), Text.Join(PIDsToString(pids), ","));
  }

  /** The two ways the decoders cut a line `<d>*[<b>] (<j>)`. */
  lemma LayoutWithPids(d: string, b: string, j: string)
    ensures d + "*[" + b + "]" + " (" + j + ")" == d + ['*'] + (("[" + b + "] ") + ['('] + (j + ")"))
    ensures d + "*[" + b + "]" + " (" + j + ")" == (d + "*[" + b + "] ") + ['('] + j + [')']
  {
  }

  /** Whatever precedes the first '*' and follows the last '(', the bracketed name between
      them reads back. */
  lemma DecodeNameWithPidsOf(d: string, name: string, tail: string)
    requires '*' !in d && '(' !in tail
    ensures DecodeName(d + ['*'] + (("[" + name + "] ") + ['('] + tail), true) == Some(name)
  {
    var frame := "[" + name + "] ";
    Text.DropThroughOfConcat(d, '*', frame + ['('] + tail);
    Text.BeforeLastOfConcat(frame, '(', tail);
    FrameReadsBack(name, "] ");
  }

  /** Whatever the name holds, its bracket frame is recognised and stripped back to it. */
  lemma FrameReadsBack(name: string, close: string)
    requires close == "]" || close == "] "
    ensures var frame := "[" + name + close;
      && |frame| > |close| && frame[0] == '[' && frame[|frame| - |close|..] == close
      && frame[1..|frame| - |close|] == name
  {
    var frame := "[" + name + close;
    assert frame[|frame| - |close|..] == close;
    assert frame[1..|frame| - |close|] == name;
  }

  /** Rendered PIDs contain neither the list separator nor an opening parenthesis. */
  lemma RenderedPidsAvoid(pids: seq<int>)
    ensures var strs := PIDsToString(pids);
      && (forall i :: 0 <= i < |strs| ==> ',' !in strs[i])
      && '(' !in Text.Join(strs, ",")
  {
    var strs := PIDsToString(pids);
    forall i | 0 <= i < |strs|
      ensures ',' !in strs[i] && '(' !in strs[i]
    {
      NoSymbolInDecimal(pids[i], ',');
      NoSymbolInDecimal(pids[i], '(');
    }
    JoinAvoids(strs, ",", '(');
  }

  lemma PidsDecode(command: string, count: int, pids: seq<int>)
    requires count > 1
    ensures DecodePids(FormatCompactOutput(command, count, pids, true)) == Some(pids)
  {
    var line := FormatCompactOutput(command, count, pids, true);
    var strs := PIDsToString(pids);
    var joined := Text.Join(strs, ",");
    RenderedPidsAvoid(pids);
    var front := Text.DecimalString(count) + "*[" + Text.Base(command) + "] ";
    LayoutWithPids(Text.DecimalString(count), Text.Base(command), joined);
    assert line == front + ['('] + joined + [')'];
    assert line[..|line| - 1] == front + ['('] + joined;
    Text.AfterLastOfConcat(front, '(', joined);
    if |pids| > 0 {
      assert |strs[0]| > 0;
      assert joined != "";
      Text.SplitJoin(strs, ',');
      PIDsToStringRoundTrip(pids);
    }
  }

  /** A joined string holds a character only if an element or the separator does. */
  lemma {:induction false} JoinAvoids(strs: seq<string>, sep: string, c: char)
    requires c !in sep
    requires forall i :: 0 <= i < |strs| ==> c !in strs[i]
    ensures c !in Text.Join(strs, sep)
    decreases |strs|
  {
    if |strs| > 1 {
      JoinAvoids(strs[1..], sep, c);
    }
  }
}

=== FILE: ordering.dfy ===
/** Ordering keys and sorting. Go's `sort.Slice` is not stable, so every property about a
    sort is stated for ANY permutation that is non-decreasing in the key (`IsSortOf`);
    `SortOn`, an insertion sort, is one such permutation. */
module Ordering {

  /** A sort key: the numeric fields compare as integers, the username as a string. */
  datatype Key = IntKey(n: int) | StrKey(s: string)

  /** Go's `<` on strings: byte-wise lexicographic order. Dafny characters are Unicode
      scalar values and UTF-8 encoding preserves their order, so comparing characters
      agrees with comparing the encoded bytes. */
  predicate LexLess(a: string, b: string)
    decreases |a|
  {
    if |b| == 0 then false
    else if |a| == 0 then true
    else if a[0] != b[0] then a[0] < b[0]
    else LexLess(a[1..], b[1..])
  }

  /** LexLess holds exactly when `a` and `b` agree up to some position `k` at which `a`
      ends first or has the smaller character. */
  lemma {:induction false} LexLessMeaning(a: string, b: string)
    ensures LexLess(a, b) <==>
      exists k :: 0 <= k <= |a| && k < |b| && a[..k] == b[..k] && (k == |a| || a[k] < b[k])
    decreases |a|
  {
    if |b| == 0 {
    } else if |a| == 0 {
      assert a[..0] == b[..0];
    } else if a[0] != b[0] {
      if a[0] < b[0] {
        assert a[..0] == b[..0];
      }
      forall k | 0 < k <= |a| && k < |b|
        ensures a[..k] != b[..k]
      {
        assert a[..k][0] != b[..k][0];
      }
    } else {
      LexLessMeaning(a[1..], b[1..]);
      if LexLess(a, b) {
        var k :| 0 <= k <= |a[1..]| && k < |b[1..]| && a[1..][..k] == b[1..][..k]
          && (k == |a[1..]| || a[1..][k] < b[1..][k]);
        assert a[..k + 1] == [a[0]] + a[1..][..k];
        assert b[..k + 1] == [b[0]] + b[1..][..k];
      }
      if exists k :: 0 <= k <= |a| && k < |b| && a[..k] == b[..k] && (k == |a| || a[k] < b[k]) {
        var k :| 0 <= k <= |a| && k < |b| && a[..k] == b[..k] && (k == |a| || a[k] < b[k]);
        assert k > 0;
        assert a[1..][..k - 1] == a[..k][1..];
        assert b[1..][..k - 1] == b[..k][1..];
      }
    }
  }

  lemma {:induction false} LexLessIrreflexive(a: string)
    ensures !LexLess(a, a)
    decreases |a|
  {
    if |a| > 0 {
      LexLessIrreflexive(a[1..]);
    }
  }

  lemma {:induction false} LexLessTransitive(a: string, b: string, c: string)
    requires LexLess(a, b) && LexLess(b, c)
    ensures LexLess(a, c)
    decreases |a|
  {
    if |a| > 0 && a[0] == b[0] && b[0] == c[0] {
      LexLessTransitive(a[1..], b[1..], c[1..]);
    }
  }

  lemma {:induction false} LexLessTotal(a: string, b: string)
    requires a != b
    ensures LexLess(a, b) || LexLess(b, a)
    decreases |a|
  {
    if |a| > 0 && |b| > 0 && a[0] == b[0] {
      assert a == [a[0]] + a[1..] && b == [b[0]] + b[1..];
      LexLessTotal(a[1..], b[1..]);
    }
  }

  /** Strict order on keys; integer keys sort before string keys (they are never mixed
      within one sort). */
  predicate KeyLess(a: Key, b: Key) {
    match (a, b)
    case (IntKey(x), IntKey(y)) => x < y
    case (StrKey(x), StrKey(y)) => LexLess(x, y)
    case (IntKey(_), StrKey(_)) => true
    case (StrKey(_), IntKey(_)) => false
  }

  lemma KeyLessAsymmetric(a: Key, b: Key)
    requires KeyLess(a, b)
    ensures !KeyLess(b, a)
  {
    if a.StrKey? && b.StrKey? && LexLess(b.s, a.s) {
      LexLessTransitive(a.s, b.s, a.s);
      LexLessIrreflexive(a.s);
    }
  }

  lemma KeyLessTotal(a: Key, b: Key)
    requires a != b
    ensures KeyLess(a, b) || KeyLess(b, a)
  {
    if a.StrKey? && b.StrKey? {
      LexLessTotal(a.s, b.s);
    }
  }

  /** "Not less than" is transitive: the key order is a total preorder. */
  lemma KeyNotLessTransitive(a: Key, b: Key, c: Key)
    requires !KeyLess(a, b) && !KeyLess(b, c)
    ensures !KeyLess(a, c)
  {
    if a != b && b != c {
      KeyLessTotal(a, b);
      KeyLessTotal(b, c);
      if a.StrKey? && b.StrKey? && c.StrKey? {
        LexLessTransitive(c.s, b.s, a.s);
      }
      KeyLessAsymmetric(c, a);
    }
  }

  /** Non-decreasing in the key: no later element is strictly less than an earlier one. */
  ghost predicate SortedOn<T>(s: seq<T>, key: T -> Key) {
    forall i, j :: 0 <= i < j < |s| ==> !KeyLess(key(s[j]), key(s[i]))
  }

  /** `r` is a possible outcome of an unstable sort of `s` by `key`. */
  ghost predicate IsSortOf<T>(s: seq<T>, key: T -> Key, r: seq<T>) {
    multiset(r) == multiset(s) && SortedOn(r, key)
  }

  /** Inserts `x` in front of the first element that is not less than it. */
  function Insert<T(==)>(x: T, s: seq<T>, key: T -> Key): (r: seq<T>)
    requires SortedOn(s, key)
    ensures multiset(r) == multiset(s) + multiset{x}
    ensures SortedOn(r, key)
  {
    if |s| == 0 then [x]
    else if !KeyLess(key(s[0]), key(x)) then
      assert forall j :: 0 <= j < |s| ==> !KeyLess(key(s[j]), key(x)) by {
        forall j | 0 <= j < |s|
          ensures !KeyLess(key(s[j]), key(x))
        {
          if j > 0 {
            KeyNotLessTransitive(key(s[j]), key(s[0]), key(x));
          }
        }
      }
      [x] + s
    else
      var t := Insert(x, s[1..], key);
      assert s == [s[0]] + s[1..];
      assert forall j :: 0 <= j < |t| ==> !KeyLess(key(t[j]), key(s[0])) by {
        forall j | 0 <= j < |t|
          ensures !KeyLess(key(t[j]), key(s[0]))
        {
          assert t[j] in multiset(t);
          if t[j] == x {
            KeyLessAsymmetric(key(s[0]), key(x));
          } else {
            assert t[j] in multiset(s[1..]);
            var k :| 0 <= k < |s[1..]| && s[1..][k] == t[j];
            assert s[k + 1] == t[j];
          }
        }
      }
      [s[0]] + t
  }

  /** Insertion sort: a permutation of `s` that is non-decreasing in `key`. */
  function SortOn<T(==)>(s: seq<T>, key: T -> Key): (r: seq<T>)
    ensures IsSortOf(s, key, r)
  {
    if |s| == 0 then []
    else
      assert s == [s[0]] + s[1..];
      Insert(s[0], SortOn(s[1..], key), key)
  }

  /** Elements of `s` that are different have different keys. */
  ghost predicate KeysDistinct<T>(s: seq<T>, key: T -> Key) {
    forall i, j :: 0 <= i < |s| && 0 <= j < |s| && key(s[i]) == key(s[j]) ==> s[i] == s[j]
  }

  lemma FirstIsLeast<T>(r: seq<T>, key: T -> Key, j: int)
    requires SortedOn(r, key) && 0 <= j < |r|
    ensures !KeyLess(key(r[j]), key(r[0]))
  {
    if j > 0 {
      assert !KeyLess(key(r[j]), key(r[0]));
    } else {
      if KeyLess(key(r[0]), key(r[0])) {
        KeyLessAsymmetric(key(r[0]), key(r[0]));
      }
    }
  }

  /** Two sorts of the same elements with distinct keys start with the same element. */
  lemma SortHeadsAgree<T>(s: seq<T>, key: T -> Key, r1: seq<T>, r2: seq<T>)
    requires KeysDistinct(s, key)
    requires IsSortOf(s, key, r1) && IsSortOf(s, key, r2)
    requires |r1| > 0 && |r2| > 0
    ensures r1[0] == r2[0]
  {
    var a, b := r1[0], r2[0];
    assert a in multiset(r2);
    var ia :| 0 <= ia < |r2| && r2[ia] == a;
    FirstIsLeast(r2, key, ia);
    assert b in multiset(r1);
    var ib :| 0 <= ib < |r1| && r1[ib] == b;
    FirstIsLeast(r1, key, ib);
    if key(a) != key(b) {
      KeyLessTotal(key(a), key(b));
    }
    assert a in multiset(s) && b in multiset(s);
    var i :| 0 <= i < |s| && s[i] == a;
    var j :| 0 <= j < |s| && s[j] == b;
  }

  lemma KeysDistinctSub<T>(s: seq<T>, t: seq<T>, key: T -> Key)
    requires KeysDistinct(s, key)
    requires multiset(t) <= multiset(s)
    ensures KeysDistinct(t, key)
  {
    forall x, y | 0 <= x < |t| && 0 <= y < |t| && key(t[x]) == key(t[y])
      ensures t[x] == t[y]
    {
      assert t[x] in multiset(t) && t[y] in multiset(t);
      var p :| 0 <= p < |s| && s[p] == t[x];
      var q :| 0 <= q < |s| && s[q] == t[y];
    }
  }

  lemma SortedTail<T>(r: seq<T>, key: T -> Key)
    requires SortedOn(r, key) && |r| > 0
    ensures SortedOn(r[1..], key)
  {
    var t := r[1..];
    forall x, y | 0 <= x < y < |t|
      ensures !KeyLess(key(t[y]), key(t[x]))
    {
      assert t[x] == r[x + 1] && t[y] == r[y + 1];
    }
  }

  lemma TailMultiset<T>(r: seq<T>)
    requires |r| > 0
    ensures multiset(r[1..]) == multiset(r) - multiset{r[0]}
  {
    assert r == [r[0]] + r[1..];
  }

  /** Dropping the common first element keeps both the sort and the distinct keys. */
  lemma SortTails<T>(s: seq<T>, key: T -> Key, r1: seq<T>, r2: seq<T>)
    requires KeysDistinct(s, key)
    requires IsSortOf(s, key, r1) && IsSortOf(s, key, r2)
    requires |r1| > 0 && |r2| > 0 && r1[0] == r2[0]
    ensures KeysDistinct(r1[1..], key)
    ensures IsSortOf(r1[1..], key, r1[1..]) && IsSortOf(r1[1..], key, r2[1..])
  {
    var a, t1, t2 := r1[0], r1[1..], r2[1..];
    TailMultiset(r1);
    TailMultiset(r2);
    KeysDistinctSub(s, t1, key);
    SortedTail(r1, key);
    SortedTail(r2, key);
  }

  /** When keys are distinct the unstable sort has only one possible outcome. */
  lemma {:induction false} SortIsUnique<T>(s: seq<T>, key: T -> Key, r1: seq<T>, r2: seq<T>)
    requires KeysDistinct(s, key)
    requires IsSortOf(s, key, r1) && IsSortOf(s, key, r2)
    ensures r1 == r2
    decreases |s|
  {
    assert |r1| == |multiset(s)| == |r2|;
    if |r1| > 0 {
      SortHeadsAgree(s, key, r1, r2);
      SortTails(s, key, r1, r2);
      SortIsUnique(r1[1..], key, r1[1..], r2[1..]);
      assert r1 == [r1[0]] + r1[1..] && r2 == [r2[0]] + r2[1..];
    }
  }
}

=== FILE: records.dfy ===
/** Process records (pkg/pstree/pstree.go): building one record from what the collector
    fetched, ordering records by one attribute, and looking a record up by PID. */
module Records {
  import opened Wrappers
  import Text
  import Ordering
  import Seqs

  /** One process. `cpuPercent` is in hundredths of a percent (the source rounds the
      percentage to two decimals); `age` is in seconds; `parent`, `child` and `sister` are
      indices into the node table, -1 for none. `signature` is filled in by the tree
      builder, which is not part of this model; a freshly generated record has "". */
  datatype Process = Process(
    pid: int,
    ppid: int,
    pgid: int,
    username: string,
    command: string,
    args: seq<string>,
    createTime: int,
    age: int,
    cpuPercent: int,
    rss: nat,
    numThreads: int,
    uids: seq<nat>,
    signature: string,
    parent: int,
    child: int,
    sister: int)

  /** The display settings shared by the collector, the compactor and the printer.
      Terminal facts (colour support, screen width, installed memory) are left out. */
  datatype DisplayOptions = DisplayOptions(
    colorAttr: string,
    colorizeOutput: bool,
    colorScheme: string,
    compactMode: bool,
    contains: string,
    excludeRoot: bool,
    ibm850Graphics: bool,
    maxDepth: int,
    orderBy: string,
    rainbowOutput: bool,
    rootPid: int,
    showArguments: bool,
    showCpuPercent: bool,
    showMemoryUsage: bool,
    showNumThreads: bool,
    showOwner: bool,
    showPGIDs: bool,
    showPGLs: bool,
    showPIDs: bool,
    showPPIDs: bool,
    showProcessAge: bool,
    showUIDTransitions: bool,
    showUserTransitions: bool,
    usernames: seq<string>,
    utf8Graphics: bool,
    vt100Graphics: bool,
    wideDisplay: bool)

  /** Every field at Go's zero value. */
  const ZeroOptions := DisplayOptions(
    "", false, "", false, "", false, false, 0, "", false, 0,
    false, false, false, false, false, false, false, false, false, false, false, false,
    [], false, false, false)

  /** The answer of one attribute query to the operating system. */
  datatype Fetch<T> = Fetched(value: T) | FetchFailed

  /** Everything the collector could ask the operating system about one process. Only
      the PID is always known; each other attribute may fail on its own. `now` is the
      clock reading taken while this process's record is built: the source reads the
      clock once per record, so records built later may see a later time. */
  datatype Collected = Collected(
    pid: int,
    now: int,
    args: Fetch<seq<string>>,
    command: Fetch<string>,
    ppid: Fetch<int>,
    cpuPercent: Fetch<int>,
    createTime: Fetch<int>,
    rss: Fetch<nat>,
    numThreads: Fetch<int>,
    pgid: Fetch<int>,
    username: Fetch<string>,
    uids: Fetch<seq<nat>>)

  function FetchOr<T>(f: Fetch<T>, fallback: T): T {
    match f
    case Fetched(v) => v
    case FetchFailed => fallback
  }

  /** An attribute fetched only on request: Go's zero value when not requested, the
      sentinel when the query failed. */
  function Requested<T>(wanted: bool, f: Fetch<T>, sentinel: T, zero: T): T {
    if wanted then FetchOr(f, sentinel) else zero
  }

  predicate WantsCpu(o: DisplayOptions) {
    o.showCpuPercent || o.orderBy == "cpu" || o.colorAttr == "cpu"
  }

  predicate WantsAge(o: DisplayOptions) {
    o.showProcessAge || o.orderBy == "age" || o.colorAttr == "age"
  }

  predicate WantsMemory(o: DisplayOptions) {
    o.showMemoryUsage || o.orderBy == "mem" || o.colorAttr == "mem"
  }

  predicate WantsThreads(o: DisplayOptions) {
    o.showNumThreads || o.orderBy == "threads"
  }

  predicate WantsPgid(o: DisplayOptions) {
    o.showPGIDs || o.showPGLs
  }

  predicate WantsUsername(o: DisplayOptions) {
    o.showOwner || o.showUserTransitions || o.orderBy == "user"
  }

  predicate WantsUids(o: DisplayOptions) {
    o.showUIDTransitions || o.showUserTransitions
  }

  /** Drops the first argument when it repeats the command name. The result is what is
      left of `args` after removing at most that one leading element. */
  function NormaliseArgs(args: seq<string>, command: string): (r: seq<string>)
    ensures |r| < |args| <==> |args| > 0 && args[0] == command
    ensures args == (if |r| < |args| then [command] else []) + r
  {
    if |args| > 0 && args[0] == command then
      if |args| == 1 then [] else args[1..]
    else args
  }

  /** Builds the record for one process from the collector's answers, substituting the
      per-attribute sentinel for every failed query, and leaves it unlinked. */
  function GenerateProcess(c: Collected, opts: DisplayOptions): (p: Process)
    ensures p.pid == c.pid
    ensures p.parent == -1 && p.child == -1 && p.sister == -1
    ensures p.command == (if c.command.Fetched? then c.command.value else "?")
    ensures p.ppid == (if c.ppid.Fetched? then c.ppid.value else -1)
    ensures var raw := if c.args.Fetched? then c.args.value else [];
      NormaliseArgs(raw, p.command) == p.args
    ensures p.age == c.now - p.createTime
    ensures p.createTime == (if !WantsAge(opts) then 0 else if c.createTime.Fetched? then c.createTime.value else -1)
    ensures p.cpuPercent == (if !WantsCpu(opts) then 0 else if c.cpuPercent.Fetched? then c.cpuPercent.value else -100)
    ensures p.rss == (if WantsMemory(opts) && c.rss.Fetched? then c.rss.value else 0)
    ensures p.numThreads == (if !WantsThreads(opts) then 0 else if c.numThreads.Fetched? then c.numThreads.value else -1)
    ensures p.pgid == (if !WantsPgid(opts) then 0 else if c.pgid.Fetched? then c.pgid.value else -1)
    ensures p.username == (if !WantsUsername(opts) then "" else if c.username.Fetched? then c.username.value else "?")
    ensures p.uids == (if WantsUids(opts) && c.uids.Fetched? then c.uids.value else [])
  {
    var command := FetchOr(c.command, "?");
    var createTime := Requested(WantsAge(opts), c.createTime, -1, 0);
    Process(
      pid := c.pid,
      ppid := FetchOr(c.ppid, -1),
      pgid := Requested(WantsPgid(opts), c.pgid, -1, 0),
      username := Requested(WantsUsername(opts), c.username, "?", ""),
      command := command,
      args := NormaliseArgs(FetchOr(c.args, []), command),
      createTime := createTime,
      age := c.now - createTime,
      cpuPercent := Requested(WantsCpu(opts), c.cpuPercent, -100, 0),
      rss := Requested(WantsMemory(opts), c.rss, 0, 0),
      numThreads := Requested(WantsThreads(opts), c.numThreads, -1, 0),
      uids := Requested(WantsUids(opts), c.uids, [], []),
      signature := "",
      parent := -1,
      child := -1,
      sister := -1)
  }

  /** An attribute that was not requested never influences the record: two collections
      that agree on the always-fetched fields and on every requested attribute yield the
      same record. */
  lemma UnrequestedAttributesIgnored(c: Collected, d: Collected, opts: DisplayOptions)
    requires c.pid == d.pid && c.now == d.now && c.args == d.args && c.command == d.command && c.ppid == d.ppid
    requires WantsAge(opts) ==> c.createTime == d.createTime
    requires WantsCpu(opts) ==> c.cpuPercent == d.cpuPercent
    requires WantsMemory(opts) ==> c.rss == d.rss
    requires WantsThreads(opts) ==> c.numThreads == d.numThreads
    requires WantsPgid(opts) ==> c.pgid == d.pgid
    requires WantsUsername(opts) ==> c.username == d.username
    requires WantsUids(opts) ==> c.uids == d.uids
    ensures GenerateProcess(c, opts) == GenerateProcess(d, opts)
  {
  }

  /** The error text for a PID that is not in the list. */
  function NotFoundMessage(pid: int): string {
    "the process with the PID " + Text.DecimalString(pid) + " was not found"
  }

  /** Linear search for the first record with the given PID. */
  function GetProcessByPid(procs: seq<Process>, pid: int): (r: Result<Process, string>)
    ensures r.Success? <==> exists i :: 0 <= i < |procs| && procs[i].pid == pid
    ensures r.Success? ==> exists i :: (0 <= i < |procs| && procs[i] == r.value && r.value.pid == pid
      && forall j :: 0 <= j < i ==> procs[j].pid != pid)
    ensures r.Failure? ==> r.error == NotFoundMessage(pid)
  {
    if |procs| == 0 then Failure(NotFoundMessage(pid))
    else if procs[0].pid == pid then Success(procs[0])
    else
      var r := GetProcessByPid(procs[1..], pid);
      assert forall i :: 0 < i < |procs| ==> procs[i] == procs[1..][i - 1];
      r
  }

  /** The attribute an order-by request sorts on. */
  datatype SortKey = ByAge | ByCpu | ByMemory | ByPid | ByThreads | ByUsername

  function ProcKey(k: SortKey): Process -> Ordering.Key {
    match k
    case ByAge => (p: Process) => Ordering.IntKey(p.age)
    case ByCpu => (p: Process) => Ordering.IntKey(p.cpuPercent)
    case ByMemory => (p: Process) => Ordering.IntKey(p.rss)
    case ByPid => (p: Process) => Ordering.IntKey(p.pid)
    case ByThreads => (p: Process) => Ordering.IntKey(p.numThreads)
    case ByUsername => (p: Process) => Ordering.StrKey(p.username)
  }

  /** `p` may be placed before `q` by the ascending comparator for `k`, in the source's
      own terms: numeric fields by `<=`, usernames lexicographically. */
  predicate InOrder(k: SortKey, p: Process, q: Process) {
    match k
    case ByAge => p.age <= q.age
    case ByCpu => p.cpuPercent <= q.cpuPercent
    case ByMemory => p.rss <= q.rss
    case ByPid => p.pid <= q.pid
    case ByThreads => p.numThreads <= q.numThreads
    case ByUsername => !Ordering.LexLess(q.username, p.username)
  }

  /** SortProcsByAge, ...ByCpu, ...ByMemory, ...ByPid, ...ByNumThreads and ...ByUsername:
      a permutation of the records that is ascending in the chosen attribute. */
  function SortProcs(procs: seq<Process>, k: SortKey): (r: seq<Process>)
    ensures Ordering.IsSortOf(procs, ProcKey(k), r)
    ensures forall i, j :: 0 <= i < j < |r| ==> InOrder(k, r[i], r[j])
  {
    var r := Ordering.SortOn(procs, ProcKey(k));
    SortedProcsInOrder(procs, k, r);
    r
  }

  /** Any possible outcome of the unstable sort lists the records in the order InOrder
      describes. */
  lemma SortedProcsInOrder(procs: seq<Process>, k: SortKey, r: seq<Process>)
    requires Ordering.IsSortOf(procs, ProcKey(k), r)
    ensures forall i, j :: 0 <= i < j < |r| ==> InOrder(k, r[i], r[j])
  {
    forall i, j | 0 <= i < j < |r|
      ensures InOrder(k, r[i], r[j])
    {
      assert !Ordering.KeyLess(ProcKey(k)(r[j]), ProcKey(k)(r[i]));
      KeyOrderIsInOrder(k, r[i], r[j]);
    }
  }

  /** The sort key's order agrees with InOrder. */
  lemma KeyOrderIsInOrder(k: SortKey, p: Process, q: Process)
    ensures !Ordering.KeyLess(ProcKey(k)(q), ProcKey(k)(p)) <==> InOrder(k, p, q)
  {
  }

  function CollectedPid(c: Collected): Ordering.Key {
    Ordering.IntKey(c.pid)
  }

  /** Orders the operating system's process handles by ascending PID. */
  function SortByPid(procs: seq<Collected>): (r: seq<Collected>)
    ensures Ordering.IsSortOf(procs, CollectedPid, r)
    ensures forall i, j :: 0 <= i < j < |r| ==> r[i].pid <= r[j].pid
  {
    var r := Ordering.SortOn(procs, CollectedPid);
    assert forall i, j :: 0 <= i < j < |r| ==> !Ordering.KeyLess(CollectedPid(r[j]), CollectedPid(r[i]));
    r
  }

  function Generate(opts: DisplayOptions): Collected -> Process {
    (c: Collected) => GenerateProcess(c, opts)
  }

  /** One record per collected process, in ascending PID order. */
  function GetProcesses(collected: seq<Collected>, opts: DisplayOptions): (r: seq<Process>)
    ensures multiset(r) == multiset(Seqs.MapSeq(Generate(opts), collected))
    ensures forall i, j :: 0 <= i < j < |r| ==> r[i].pid <= r[j].pid
  {
    var sorted := SortByPid(collected);
    Seqs.MapSeqPermutation(Generate(opts), sorted, collected);
    Seqs.MapSeq(Generate(opts), sorted)
  }

  /** PIDs are unique in a snapshot, so the unstable sort cannot make GetProcesses depend
      on more than its input: every admissible ordering yields the same records. */
  lemma GetProcessesDeterministic(collected: seq<Collected>, opts: DisplayOptions, s: seq<Collected>)
    requires forall i, j :: 0 <= i < j < |collected| ==> collected[i].pid != collected[j].pid
    requires Ordering.IsSortOf(collected, CollectedPid, s)
    ensures Seqs.MapSeq(Generate(opts), s) == GetProcesses(collected, opts)
  {
    assert Ordering.KeysDistinct(collected, CollectedPid);
    Ordering.SortIsUnique(collected, CollectedPid, s, SortByPid(collected));
  }
}

=== FILE: seqs.dfy ===
/** Sequence helpers: element-wise mapping, element removal, sums and maxima, and the
    facts that sums, maxima and images do not depend on element order. */
module Seqs {

  /** The sequence of `f` applied to each element of `s`, in order. */
  function MapSeq<A, B>(f: A -> B, s: seq<A>): (r: seq<B>)
    ensures |r| == |s|
    ensures forall i :: 0 <= i < |s| ==> r[i] == f(s[i])
  {
    seq(|s|, i requires 0 <= i < |s| => f(s[i]))
  }

  /** `s` with the element at position `i` taken out. */
  function RemoveAt<T>(s: seq<T>, i: nat): (r: seq<T>)
    requires i < |s|
    ensures |r| == |s| - 1
    ensures forall j :: 0 <= j < |r| ==> r[j] == if j < i then s[j] else s[j + 1]
  {
    s[..i] + s[i + 1..]
  }

  /** `s` is its prefix before `i`, the element at `i`, and the rest; taking that element
      out leaves the prefix and the rest. */
  lemma SplitAround<T>(s: seq<T>, i: nat)
    requires i < |s|
    ensures s == s[..i] + [s[i]] + s[i + 1..]
    ensures RemoveAt(s, i) == s[..i] + s[i + 1..]
  {
  }

  lemma RemoveAtMultiset<T>(s: seq<T>, i: nat)
    requires i < |s|
    ensures multiset(RemoveAt(s, i)) == multiset(s) - multiset{s[i]}
  {
    SplitAround(s, i);
  }

  /** Mapping commutes with concatenation. */
  lemma MapSeqConcat<A, B>(f: A -> B, a: seq<A>, b: seq<A>)
    ensures MapSeq(f, a + b) == MapSeq(f, a) + MapSeq(f, b)
  {
  }

  lemma MapSeqMultisetConcat<A, B>(f: A -> B, a: seq<A>, b: seq<A>)
    ensures multiset(MapSeq(f, a + b)) == multiset(MapSeq(f, a)) + multiset(MapSeq(f, b))
  {
    MapSeqConcat(f, a, b);
  }

  /** When two sequences have the same elements, the last element of the first occurs in
      the second, and taking one occurrence out of each leaves equal multisets again. */
  lemma PermutationTail<T>(a: seq<T>, b: seq<T>) returns (i: nat)
    requires |a| > 0 && multiset(a) == multiset(b)
    ensures i < |b| && b[i] == a[|a| - 1]
    ensures multiset(a[..|a| - 1]) == multiset(RemoveAt(b, i))
  {
    assert a[|a| - 1] in multiset(b);
    i :| 0 <= i < |b| && b[i] == a[|a| - 1];
    RemoveAtMultiset(b, i);
    assert a == a[..|a| - 1] + [a[|a| - 1]];
  }

  /** The multiset of images depends only on the multiset of arguments. */
  lemma {:induction false} MapSeqPermutation<A, B>(f: A -> B, a: seq<A>, b: seq<A>)
    requires multiset(a) == multiset(b)
    ensures multiset(MapSeq(f, a)) == multiset(MapSeq(f, b))
    decreases |a|
  {
    if |a| > 0 {
      var n := |a| - 1;
      var i := PermutationTail(a, b);
      MapSeqPermutation(f, a[..n], RemoveAt(b, i));
      MapSeqRemove(f, b, i);
      MapSeqRemove(f, a, n);
      assert RemoveAt(a, n) == a[..n];
    }
  }

  lemma MapSeqRemove<A, B>(f: A -> B, b: seq<A>, i: nat)
    requires i < |b|
    ensures multiset(MapSeq(f, b)) == multiset(MapSeq(f, RemoveAt(b, i))) + multiset{f(b[i])}
  {
    var p, q := b[..i], b[i + 1..];
    SplitAround(b, i);
    MapSeqMultisetConcat(f, p + [b[i]], q);
    MapSeqMultisetConcat(f, p, [b[i]]);
    MapSeqMultisetConcat(f, p, q);
    assert MapSeq(f, [b[i]]) == [f(b[i])];
  }

  /** No two positions of `s` have the same image under `f`. */
  ghost predicate InjectiveOn<T, K>(s: seq<T>, f: T -> K) {
    forall i, j :: 0 <= i < j < |s| ==> f(s[i]) != f(s[j])
  }

  /** An element that occurs at two positions occurs at least twice. */
  lemma CountTwice<T>(s: seq<T>, i: nat, j: nat)
    requires i < j < |s| && s[i] == s[j]
    ensures multiset(s)[s[i]] >= 2
  {
    assert s == s[..j] + s[j..];
    assert s[i] == s[..j][i];
    assert s[j] == s[j..][0];
  }

  /** Under an injective image, every element occurs once. */
  lemma CountOnce<T, K>(s: seq<T>, f: T -> K, p: nat)
    requires InjectiveOn(s, f) && p < |s|
    ensures multiset(s)[s[p]] == 1
  {
    SplitAround(s, p);
    var rest := s[..p] + s[p + 1..];
    forall k | 0 <= k < |rest|
      ensures rest[k] != s[p]
    {
      if k < p {
        assert rest[k] == s[k];
      } else {
        assert rest[k] == s[k + 1];
      }
    }
    assert s[p] !in multiset(rest);
    assert multiset(s) == multiset(s[..p]) + multiset{s[p]} + multiset(s[p + 1..]);
  }

  /** Rearranging a sequence keeps its image injective. */
  lemma InjectivePermutation<T, K>(a: seq<T>, b: seq<T>, f: T -> K)
    requires multiset(a) == multiset(b) && InjectiveOn(a, f)
    ensures InjectiveOn(b, f)
  {
    forall i, j | 0 <= i < j < |b|
      ensures f(b[i]) != f(b[j])
    {
      if f(b[i]) == f(b[j]) {
        assert b[i] in multiset(a) && b[j] in multiset(a);
        var p :| 0 <= p < |a| && a[p] == b[i];
        var q :| 0 <= q < |a| && a[q] == b[j];
        if p == q {
          CountTwice(b, i, j);
          CountOnce(a, f, p);
        }
      }
    }
  }

  /** The elements of `s` that satisfy `keep`, in their original order. */
  function Filter<T(!new)>(s: seq<T>, keep: T -> bool): (r: seq<T>)
    ensures |r| <= |s|
    ensures forall i :: 0 <= i < |r| ==> keep(r[i])
  {
    if |s| == 0 then []
    else (if keep(s[0]) then [s[0]] else []) + Filter(s[1..], keep)
  }

  /** Filtering keeps exactly the occurrences of the elements that satisfy `keep`. */
  lemma {:induction false} FilterMultiset<T(!new)>(s: seq<T>, keep: T -> bool)
    ensures var r := Filter(s, keep);
      && (forall x :: multiset(r)[x] == if keep(x) then multiset(s)[x] else 0)
      && (forall x :: x in r <==> x in s && keep(x))
    decreases |s|
  {
    if |s| > 0 {
      assert s == [s[0]] + s[1..];
      FilterMultiset(s[1..], keep);
    }
  }

  /** Every earlier element of `s` is related by `le` to every later one. */
  ghost predicate Pairwise<T>(s: seq<T>, le: (T, T) -> bool) {
    forall i, j :: 0 <= i < j < |s| ==> le(s[i], s[j])
  }

  /** Filtering keeps every pairwise relation that held between earlier and later
      elements, so in particular it keeps a sorted sequence sorted. */
  lemma {:induction false} FilterKeepsPairwise<T(!new)>(s: seq<T>, keep: T -> bool, le: (T, T) -> bool)
    requires Pairwise(s, le)
    ensures Pairwise(Filter(s, keep), le)
    decreases |s|
  {
    if |s| > 0 {
      var tail := s[1..];
      assert forall i :: 0 <= i < |tail| ==> tail[i] == s[i + 1];
      FilterKeepsPairwise(tail, keep, le);
      var t := Filter(tail, keep);
      var r := Filter(s, keep);
      if keep(s[0]) {
        assert r == [s[0]] + t;
        forall i, j | 0 <= i < j < |r|
          ensures le(r[i], r[j])
        {
          if i == 0 {
            assert r[j] == t[j - 1];
            FilterMultiset(tail, keep);
            assert r[j] in tail;
            var m :| 0 <= m < |tail| && tail[m] == r[j];
            assert le(s[0], s[m + 1]);
          } else {
            assert r[i] == t[i - 1] && r[j] == t[j - 1];
            assert le(t[i - 1], t[j - 1]);
          }
        }
      } else {
        assert r == t;
      }
    }
  }

  /** Sum of a sequence, accumulated from the front as Go's `+=` loop does. */
  function Sum(s: seq<int>): int
  {
    if |s| == 0 then 0 else Sum(s[..|s| - 1]) + s[|s| - 1]
  }

  lemma {:induction false} SumConcat(a: seq<int>, b: seq<int>)
    ensures Sum(a + b) == Sum(a) + Sum(b)
    decreases |b|
  {
    if |b| > 0 {
      var n := |b| - 1;
      assert (a + b)[..|a + b| - 1] == a + b[..n];
      assert (a + b)[|a + b| - 1] == b[n];
      SumConcat(a, b[..n]);
      assert Sum(a + b) == Sum(a + b[..n]) + b[n];
    } else {
      assert a + b == a;
    }
  }

  lemma {:induction false} SumNonNegative(s: seq<int>)
    requires forall i :: 0 <= i < |s| ==> s[i] >= 0
    ensures Sum(s) >= 0
    decreases |s|
  {
    if |s| > 0 {
      SumNonNegative(s[..|s| - 1]);
    }
  }

  /** Reordering the summands does not change the sum. */
  lemma {:induction false} SumPermutation(a: seq<int>, b: seq<int>)
    requires multiset(a) == multiset(b)
    ensures Sum(a) == Sum(b)
    decreases |a|
  {
    if |a| > 0 {
      var n := |a| - 1;
      var i := PermutationTail(a, b);
      SumPermutation(a[..n], RemoveAt(b, i));
      SumRemove(b, i);
    }
  }

  lemma SumSingleton(v: int)
    ensures Sum([v]) == v
  {
    assert [v][..0] == [];
  }

  lemma SumRemove(b: seq<int>, i: nat)
    requires i < |b|
    ensures Sum(b) == Sum(RemoveAt(b, i)) + b[i]
  {
    var p, q := b[..i], b[i + 1..];
    SplitAround(b, i);
    SumConcat(p + [b[i]], q);
    SumConcat(p, [b[i]]);
    SumConcat(p, q);
    SumSingleton(b[i]);
  }

  /** Largest element of a sequence, starting from 0: Go's `max(acc, x)` fold with a
      zero-valued accumulator. */
  function MaxFromZero(s: seq<int>): int
  {
    if |s| == 0 then 0 else
      var m := MaxFromZero(s[..|s| - 1]);
      if s[|s| - 1] > m then s[|s| - 1] else m
  }

  /** MaxFromZero is the least upper bound of 0 and the elements. */
  lemma {:induction false} MaxFromZeroIsBound(s: seq<int>)
    ensures MaxFromZero(s) >= 0
    ensures forall i :: 0 <= i < |s| ==> s[i] <= MaxFromZero(s)
    ensures MaxFromZero(s) == 0 || MaxFromZero(s) in s
    decreases |s|
  {
    if |s| > 0 {
      var n := |s| - 1;
      MaxFromZeroIsBound(s[..n]);
      forall i | 0 <= i < n
        ensures s[i] <= MaxFromZero(s)
      {
        assert s[i] == s[..n][i];
      }
      if MaxFromZero(s[..n]) in s[..n] {
        assert s[..n] <= s;
      }
    }
  }

  /** Reordering the elements does not change the maximum. */
  lemma MaxFromZeroPermutation(a: seq<int>, b: seq<int>)
    requires multiset(a) == multiset(b)
    ensures MaxFromZero(a) == MaxFromZero(b)
  {
    MaxFromZeroIsBound(a);
    MaxFromZeroIsBound(b);
    if MaxFromZero(a) != 0 {
      assert MaxFromZero(a) in multiset(a);
    }
    if MaxFromZero(b) != 0 {
      assert MaxFromZero(b) in multiset(b);
    }
  }
}

=== FILE: text.dfy ===
/** Text helpers the formatter relies on: Go's `%d` rendering of integers, `strings.Join`,
    `strings.Split` on a single character (the inverse of Join), and `filepath.Base`. */
module Text {
  import opened Wrappers

  predicate IsDigit(c: char) {
    '0' <= c <= '9'
  }

  predicate AllDigits(s: string) {
    forall i :: 0 <= i < |s| ==> IsDigit(s[i])
  }

  function DigitChar(d: nat): (c: char)
    requires d < 10
    ensures IsDigit(c)
    ensures c as int - '0' as int == d
  {
    "0123456789"[d]
  }

  /** Decimal digits of a natural number, most significant first, without leading zeros. */
  function NatToDecimal(n: nat): (s: string)
    ensures |s| > 0
    ensures AllDigits(s)
    ensures s[0] == '0' ==> n == 0 && |s| == 1
    decreases n
  {
    if n < 10 then [DigitChar(n)] else NatToDecimal(n / 10) + [DigitChar(n % 10)]
  }

  /** Value of a string of decimal digits. */
  function DigitsValue(s: string): nat
    requires AllDigits(s)
  {
    if |s| == 0 then 0 else DigitsValue(s[..|s| - 1]) * 10 + (s[|s| - 1] as int - '0' as int)
  }

  /** Go's `fmt.Sprintf("%d", n)`: a minus sign for negative values, then the digits. */
  function DecimalString(n: int): string
  {
    if n < 0 then "-" + NatToDecimal(-n) else NatToDecimal(n)
  }

  /** Digits as `%d` writes them: at least one, and no leading zero unless the number is 0. */
  predicate Canonical(d: string) {
    |d| > 0 && AllDigits(d) && (d[0] == '0' ==> |d| == 1)
  }

  /** Reads back an integer written in `%d` form: an optional minus sign, then digits
      without a leading zero. "-0" and anything else give None. */
  function ParseInt(s: string): Option<int>
  {
    if |s| > 1 && s[0] == '-' && Canonical(s[1..]) && s[1] != '0' then
      var v: int := DigitsValue(s[1..]);
      Some(-v)
    else if Canonical(s) then
      var v: int := DigitsValue(s);
      Some(v)
    else None
  }

  lemma {:induction false} NatToDecimalValue(n: nat)
    ensures DigitsValue(NatToDecimal(n)) == n
    decreases n
  {
    if n >= 10 {
      var p := NatToDecimal(n / 10);
      var s := p + [DigitChar(n % 10)];
      assert s[..|s| - 1] == p;
      NatToDecimalValue(n / 10);
    }
  }

  /** Rendering an integer and parsing it back yields the integer. */
  lemma DecimalRoundTrip(n: int)
    ensures ParseInt(DecimalString(n)) == Some(n)
  {
    if n < 0 {
      NegativeRoundTrip(n);
    } else {
      NonNegativeRoundTrip(n);
    }
  }

  lemma NegativeRoundTrip(n: int)
    requires n < 0
    ensures ParseInt(DecimalString(n)) == Some(n)
  {
    var m: nat := -n;
    var d := NatToDecimal(m);
    NatToDecimalValue(m);
    ParseSigned(d, m);
    assert DecimalString(n) == "-" + d;
  }

  lemma NonNegativeRoundTrip(n: int)
    requires n >= 0
    ensures ParseInt(DecimalString(n)) == Some(n)
  {
    var d := NatToDecimal(n);
    NatToDecimalValue(n);
    ParseUnsigned(d, n);
    assert DecimalString(n) == d;
  }

  lemma ParseSigned(d: string, v: nat)
    requires Canonical(d) && d[0] != '0' && DigitsValue(d) == v
    ensures ParseInt("-" + d) == Some(-(v as int))
  {
    var s := "-" + d;
    assert s[1..] == d;
  }

  lemma ParseUnsigned(d: string, v: nat)
    requires Canonical(d) && DigitsValue(d) == v
    ensures ParseInt(d) == Some(v)
  {
    assert !IsDigit('-');
  }

  /** Digits that do not start with '0' denote a positive number. */
  lemma {:induction false} LeadingDigitPositive(d: string)
    requires |d| > 0 && AllDigits(d) && d[0] != '0'
    ensures DigitsValue(d) > 0
    decreases |d|
  {
    if |d| > 1 {
      var p := d[..|d| - 1];
      assert p[0] == d[0];
      LeadingDigitPositive(p);
    }
  }

  /** Canonical digits are the rendering of their own value. */
  lemma {:induction false} CanonicalDigitsRoundTrip(d: string)
    requires Canonical(d)
    ensures NatToDecimal(DigitsValue(d)) == d
    decreases |d|
  {
    var n := DigitsValue(d);
    var last := d[|d| - 1];
    if |d| == 1 {
      assert d[..|d| - 1] == [];
      assert DigitsValue(d[..|d| - 1]) == 0;
      assert DigitChar(n) as int == last as int;
    } else {
      var p := d[..|d| - 1];
      assert p[0] == d[0];
      LeadingDigitPositive(p);
      CanonicalDigitsRoundTrip(p);
      assert n / 10 == DigitsValue(p);
      assert DigitChar(n % 10) as int == last as int;
      assert d == p + [last];
    }
  }

  /** A string parses to `v` exactly when it is the `%d` rendering of `v`: the parser
      accepts no other spelling of a number. */
  lemma ParseIntCanonical(s: string, v: int)
    ensures ParseInt(s) == Some(v) <==> s == DecimalString(v)
  {
    DecimalRoundTrip(v);
    if |s| > 1 && s[0] == '-' && Canonical(s[1..]) && s[1] != '0' {
      var d := s[1..];
      LeadingDigitPositive(d);
      CanonicalDigitsRoundTrip(d);
      assert s == "-" + d;
    } else if Canonical(s) {
      CanonicalDigitsRoundTrip(s);
    }
  }

  /** Distinct integers render differently. */
  lemma DecimalInjective(m: int, n: int)
    requires DecimalString(m) == DecimalString(n)
    ensures m == n
  {
    DecimalRoundTrip(m);
    DecimalRoundTrip(n);
  }

  /** A decimal rendering holds only digits and a leading minus sign. */
  lemma DecimalCharacters(n: int)
    ensures forall i :: 0 <= i < |DecimalString(n)| ==>
      IsDigit(DecimalString(n)[i]) || (i == 0 && DecimalString(n)[i] == '-')
  {
  }

  /** Go's `strings.Join(elems, sep)`. */
  function Join(elems: seq<string>, sep: string): string
  {
    if |elems| == 0 then ""
    else if |elems| == 1 then elems[0]
    else elems[0] + sep + Join(elems[1..], sep)
  }

  /** A joined string ends with the last character of its last element. */
  lemma {:induction false} JoinLastChar(elems: seq<string>, sep: string)
    requires |elems| > 0 && |elems[|elems| - 1]| > 0
    ensures var j := Join(elems, sep);
      |j| >= |elems[|elems| - 1]| && j[|j| - 1] == elems[|elems| - 1][|elems[|elems| - 1]| - 1]
    decreases |elems|
  {
    if |elems| > 1 {
      JoinLastChar(elems[1..], sep);
      assert elems[1..][|elems[1..]| - 1] == elems[|elems| - 1];
    }
  }

  /** Go's `strings.Split(s, string(c))`: the pieces between occurrences of `c`. */
  function Split(s: string, c: char): (pieces: seq<string>)
    ensures |pieces| > 0
    decreases |s|
  {
    if |s| == 0 then [""]
    else
      var rest := Split(s[1..], c);
      if s[0] == c then [""] + rest else [[s[0]] + rest[0]] + rest[1..]
  }

  lemma {:induction false} SplitWithout(a: string, c: char)
    requires c !in a
    ensures Split(a, c) == [a]
    decreases |a|
  {
    if |a| > 0 {
      SplitWithout(a[1..], c);
      assert [a[0]] + a[1..] == a;
    }
  }

  lemma {:induction false} SplitAt(a: string, c: char, b: string)
    requires c !in a
    ensures Split(a + [c] + b, c) == [a] + Split(b, c)
    decreases |a|
  {
    var s := a + [c] + b;
    if |a| == 0 {
      assert s[1..] == b;
    } else {
      assert s[1..] == a[1..] + [c] + b;
      SplitAt(a[1..], c, b);
      assert [a[0]] + a[1..] == a;
    }
  }

  /** Splitting at the separator undoes Join, provided no element contains it. */
  lemma {:induction false} SplitJoin(elems: seq<string>, c: char)
    requires |elems| > 0
    requires forall i :: 0 <= i < |elems| ==> c !in elems[i]
    ensures Split(Join(elems, [c]), c) == elems
    decreases |elems|
  {
    if |elems| == 1 {
      SplitWithout(elems[0], c);
    } else {
      SplitJoin(elems[1..], c);
      SplitAt(elems[0], c, Join(elems[1..], [c]));
      assert [elems[0]] + elems[1..] == elems;
    }
  }

  /** `s` without its trailing '/' characters. */
  function TrimTrailingSlashes(s: string): (r: string)
    ensures r <= s
    ensures r == [] || r[|r| - 1] != '/'
    ensures forall i :: |r| <= i < |s| ==> s[i] == '/'
  {
    if |s| > 0 && s[|s| - 1] == '/' then TrimTrailingSlashes(s[..|s| - 1]) else s
  }

  /** The part of `s` after its last `c`, or all of `s` when it holds none. */
  function AfterLast(s: string, c: char): (r: string)
    ensures c !in r
    ensures c !in s ==> r == s
    ensures |r| <= |s|
  {
    if |s| == 0 then ""
    else if s[|s| - 1] == c then ""
    else
      assert s == s[..|s| - 1] + [s[|s| - 1]];
      AfterLast(s[..|s| - 1], c) + [s[|s| - 1]]
  }

  /** The part of `s` before its first `c`, or all of `s` when it holds none. */
  function TakeUntil(s: string, c: char): (r: string)
    ensures r <= s
    ensures c !in r
  {
    if |s| == 0 || s[0] == c then "" else [s[0]] + TakeUntil(s[1..], c)
  }

  lemma {:induction false} TakeUntilOfConcat(a: string, c: char, b: string)
    requires c !in a
    ensures TakeUntil(a + [c] + b, c) == a
    decreases |a|
  {
    var s := a + [c] + b;
    if |a| > 0 {
      assert s[1..] == a[1..] + [c] + b;
      TakeUntilOfConcat(a[1..], c, b);
      assert [a[0]] + a[1..] == a;
    }
  }

  lemma {:induction false} AfterLastOfConcat(a: string, c: char, b: string)
    requires c !in b
    ensures AfterLast(a + [c] + b, c) == b
    decreases |b|
  {
    var s := a + [c] + b;
    if |b| == 0 {
      assert s[|s| - 1] == c;
    } else {
      var n := |b| - 1;
      var b' := b[..n];
      assert b == b' + [b[n]];
      assert s == (a + [c] + b') + [b[n]];
      assert s[..|s| - 1] == a + [c] + b';
      assert s[|s| - 1] == b[n] != c;
      AfterLastOfConcat(a, c, b');
      assert AfterLast(s, c) == AfterLast(a + [c] + b', c) + [b[n]];
    }
  }

  /** The part of `s` after its first `c`, or "" when it holds none. */
  function DropThrough(s: string, c: char): (r: string)
    ensures |r| < |s| || s == []
  {
    if |s| == 0 then "" else if s[0] == c then s[1..] else DropThrough(s[1..], c)
  }

  /** The part of `s` before its last `c`, or "" when it holds none. */
  function BeforeLast(s: string, c: char): (r: string)
    ensures |r| < |s| || s == []
  {
    if |s| == 0 then ""
    else if s[|s| - 1] == c then s[..|s| - 1]
    else BeforeLast(s[..|s| - 1], c)
  }

  /** A string holding `c` splits at its first `c` into TakeUntil and DropThrough. */
  lemma {:induction false} TakeUntilDropThrough(s: string, c: char)
    requires c in s
    ensures s == TakeUntil(s, c) + [c] + DropThrough(s, c)
    decreases |s|
  {
    if s[0] != c {
      assert c in s[1..] by {
        var i :| 0 <= i < |s| && s[i] == c;
        assert s[1..][i - 1] == c;
      }
      TakeUntilDropThrough(s[1..], c);
      assert s == [s[0]] + s[1..];
    }
  }

  /** A string holding `c` splits at its last `c` into BeforeLast and AfterLast. */
  lemma {:induction false} BeforeLastAfterLast(s: string, c: char)
    requires c in s
    ensures s == BeforeLast(s, c) + [c] + AfterLast(s, c)
    decreases |s|
  {
    var n := |s| - 1;
    if s[n] != c {
      assert c in s[..n] by {
        var i :| 0 <= i < |s| && s[i] == c;
        assert s[..n][i] == c;
      }
      BeforeLastAfterLast(s[..n], c);
      assert s == s[..n] + [s[n]];
    }
  }

  lemma {:induction false} DropThroughOfConcat(a: string, c: char, b: string)
    requires c !in a
    ensures DropThrough(a + [c] + b, c) == b
    decreases |a|
  {
    var s := a + [c] + b;
    if |a| > 0 {
      assert s[1..] == a[1..] + [c] + b;
      DropThroughOfConcat(a[1..], c, b);
    } else {
      assert s[1..] == b;
    }
  }

  lemma {:induction false} BeforeLastOfConcat(a: string, c: char, b: string)
    requires c !in b
    ensures BeforeLast(a + [c] + b, c) == a
    decreases |b|
  {
    var s := a + [c] + b;
    if |b| == 0 {
      assert s[..|s| - 1] == a;
    } else {
      var n := |b| - 1;
      assert s[|s| - 1] == b[n] != c;
      assert s[..|s| - 1] == a + [c] + b[..n];
      BeforeLastOfConcat(a, c, b[..n]);
    }
  }

  /** Go's `filepath.Base` with '/' as the separator: "." for the empty path, "/" for a
      path of slashes only, otherwise the last element once trailing slashes are dropped. */
  function Base(path: string): string
  {
    if path == "" then "."
    else
      var p := TrimTrailingSlashes(path);
      if p == "" then "/" else AfterLast(p, '/')
  }

  lemma AfterLastNonEmpty(s: string, c: char)
    requires |s| > 0 && s[|s| - 1] != c
    ensures |AfterLast(s, c)| > 0
  {
  }

  /** The base of a non-empty name without slashes is the name itself, and a directory
      prefix is stripped off. */
  lemma BaseOfPath(dir: string, name: string)
    requires |name| > 0 && '/' !in name
    ensures Base(name) == name
    ensures Base(dir + "/" + name) == name
  {
    var s := dir + "/" + name;
    assert s[|s| - 1] == name[|name| - 1];
    assert TrimTrailingSlashes(s) == s;
    AfterLastOfConcat(dir, '/', name);
    assert dir + "/" + name == dir + ['/'] + name;
  }

  /** A base name holds no '/' unless it is the root "/" itself, is never empty, and taking
      the base again changes nothing. */
  lemma BaseIsOneElement(path: string)
    ensures Base(path) == "/" || '/' !in Base(path)
    ensures |Base(path)| > 0
    ensures Base(Base(path)) == Base(path)
  {
    var b := Base(path);
    if path != "" {
      var p := TrimTrailingSlashes(path);
      if p != "" {
        AfterLastNonEmpty(p, '/');
        BaseOfPath("", b);
      }
    }
  }
}

=== FILE: wrappers.dfy ===
/** Failure-carrying result types used throughout the model. */
module Wrappers {

  /** A value that may be absent. */
  datatype Option<+T> = None | Some(value: T)

  /** Either a value or an error, standing in for Go's `(value, error)` returns. */
  datatype Result<+R, +E> = Success(value: R) | Failure(error: E)

  /** Either nothing went wrong or an error, standing in for a Go function returning only `error`. */
  datatype Outcome<+E> = Pass | Fail(error: E)
}
